=== FILE: README.md ===
# Go bindings rendering layer

This project models the pure rendering layer of the Go bindings generator
(`go/go_common.py`). That layer turns an abstract description of a device's
elements, packets and constant groups into fragments of Go source text:

- Go type expressions, through the `go_types`/`go_sizes` tables, the
  module-level `get_go_type` and `GoElement.get_go_type`.
- Identifiers: keyword escaping, packet result-type names, device type and
  package names, and link targets.
- Literal values (`format_value`).
- Method signatures: return lists, parameter lists, result types and
  derivable traits.
- Documentation comments: the line-by-line rewriting of reStructuredText
  `.. csv-table::` blocks into pipe tables, and the `// ` prefix on every
  comment line.

The modules follow that split:

- `Outcome`: `Option`, and `Result` with a `Fault` for the exceptions the
  rendering code raises itself: a failed assertion, an index out of range and
  a string method called on a non-string. The `go_sizes` lookup, whose missing
  key would be a `KeyError`, returns `None` instead.
- `Text`: Python string operations on `seq<char>`, such as `strip`, `replace`,
  `split`/`join`, `count` and `str` for integers. It also holds `ParseInt`, a
  decimal reader the renderer never calls. It is the inverse against which the
  integer renderings are stated.
- `Ir`: the element, constant group, packet and device records that the
  shared generator framework hands to the Go backend.
- `GoTypes`, `GoNames`, `GoValues`, `GoSignatures` and `GoDoc`: the five
  parts of the rendering layer.

Type expressions get meaning from a small Go type syntax: `GoType` is a named
type, a fixed array `[n]T` or a slice `[]T`. `Render` prints a type and
`Parse` reads it back. The renderers' contracts name the type expression they
print. `ParseRender` shows that every such text reads back as that type.

The table rewriter is a fold (`Run`) of a one-line step (`StepLine`) over the
lines of the text. Its state is the source's `in_table_head`, `in_table_body`
and `col_count`. The lemmas run the fold over a complete table block and over
text without tables.

## Model

| member | source | states |
|---|---|---|
| GoTypes.GoTypeNameInjective | go/go_common.py:273-286 | the `go_types` table gives distinct base types distinct Go names, and each name is a plain named type (it does not start with `[`) |
| GoTypes.GoTypeSize | go/go_common.py:288-304 | `get_go_type_size` finds a width exactly for the Go names that `go_types` produces; any other key is the lookup failure `None` |
| GoTypes.SizesAgreeWithNames | go/go_common.py:273-301 | the two tables agree: every Go type name has a size; only `string` has the string size; each numeric name ends in its bit width; `bool` is 1 bit and `rune` 8 bits |
| GoTypes.ModuleGoType | go/go_common.py:306-314 | module `get_go_type` gives the bare mapped type for cardinality 1 or `string`; otherwise `[n]T` when `array` is set and `[]T` when not |
| GoTypes.ModuleGoTypeReadsBack | go/go_common.py:306-314 | the module-level text parses back as exactly that scalar, array or slice type |
| GoTypes.ParseRender | go/go_common.py:257-265 | every well-formed type expression printed in the `[n]T`/`[]T` format reads back as itself (the rendering loses nothing, including negative lengths) |
| GoTypes.ConstantGroupGoType | go/go_common.py:269-271 | a constant group's Go type parses as its scalar base type |
| GoTypes.ElementGoType | go/go_common.py:237-267 | fails exactly when a given `cardinality` override is not positive; a constant group's camel name wins unless ignored; `string` ignores cardinality; cardinality above 1 gives `[c]T`, except a slice for `stream_data` in the `meta` context; a negative cardinality gives `[]T`; otherwise the scalar |
| GoTypes.ScalarTypeText | go/go_common.py:244-256 | with cardinality ignored, an element renders as its constant group's name or its scalar Go type |
| GoTypes.ElementAgreesWithModule | go/go_common.py:248-267 | outside a constant group and with non-zero cardinality, the element renderer equals module `get_go_type` with `array` set exactly for cardinalities above one; at cardinality 1 the two agree whatever `array` is |
| GoTypes.ZeroCardinalityDiverges | go/go_common.py:306-314 | at cardinality 0 the renderers disagree: the element renderer gives the scalar, the module-level one `[]T` or `[0]T` |
| GoNames.ElementGoName | go/go_common.py:228-235 | the Go name is `headless + "_"` exactly when the headless name is one of the 25 keywords, and the headless name otherwise; it is never a keyword |
| GoNames.EscapeRoundTrip | go/go_common.py:228-235 | dropping the `_` after a keyword recovers the headless name, for every name that is not itself a keyword followed by `_` |
| GoNames.EscapeCollision | go/go_common.py:228-235 | a keyword and the same keyword with `_` appended get the same Go name |
| GoNames.PacketTypeName | go/go_common.py:117-125 | the type name is the camel name without its first 3 characters when the underscore name starts with `get_`, without 2 when it starts with `is_`, and unchanged otherwise |
| GoNames.TypeNameDropsVerb | go/go_common.py:117-125 | with consistent spellings, `get_x`/`GetX` and `is_x`/`IsX` both give `X` |
| GoNames.DeviceGoName | go/go_common.py:31-35 | the device type name is category then name for newer devices, and name then category otherwise |
| GoNames.PackageRoundTrip | go/go_common.py:37-41 | the package name determines the device's underscore name once the category and the naming order are known |
| GoNames.LinkTarget | go/go_common.py:43-50 | a function link becomes the camel name; a callback link becomes `Register` + camel name + `Callback`; the high-level name is used for high-level links |
| GoValues.FormatValue | go/go_common.py:203-226 | lists become `{…}` and succeed exactly when every item does; booleans render `true`/`false` by truthiness; a char or string value is quoted, every quote inside has a backslash in front, and it reads back to the original once its escaped quotes are undone; a non-string char or string value is an error; for an integer type, an integer renders as text that parses back to it, a boolean as `True`/`False` and a string as itself |
| GoValues.ListLiteral | go/go_common.py:204-210 | a list whose items all render is `{`, the item renderings in order joined by `, `, and `}` |
| GoValues.Quoted | go/go_common.py:217-224 | the quoted literal starts and ends with the quote, every quote inside it has a backslash in front, and undoing the escaped quotes of its inside gives the original value |
| GoValues.EscapedQuotes | go/go_common.py:221-224 | after escaping, no quote character is left without a backslash in front |
| GoValues.UnescapeEscape | go/go_common.py:217-221 | backslash-escaping the quote character can always be undone by turning each backslash-quote pair back into the quote |
| GoValues.Collect | go/go_common.py:204-210 | the list of item renderings succeeds exactly when every item does, and keeps each item in its place |
| GoValues.IntegerListLiteral | go/go_common.py:203-226 | a list of integers renders as `{` + their decimal texts joined by `, ` + `}` |
| Text.IntRoundTrip | go/go_common.py:226 | Python's `str` on an integer gives text that reads back as that integer |
| GoSignatures.StreamEntries | go/go_common.py:55-68 | the entries fail, as an index error, exactly when a short-write `stream_in` packet in high-level mode has no written-count element |
| GoSignatures.StreamEntriesLayout | go/go_common.py:55-68 | entry layout: the `stream_out` data slice `name []T` first, then one `name type` per returned output in order, then the written count typed `uint64` |
| GoSignatures.ReturnEntries | go/go_common.py:55-72 | a function's entries are the stream entries followed by `err error`; a callback's are the stream entries alone |
| GoSignatures.GoReturnType | go/go_common.py:55-72 | the return list is the entries joined by `, `; it fails, as an index error, exactly when the entries do; a function's ends with `err error` |
| GoSignatures.LowLevelReturnIgnoresStream | go/go_common.py:55-72 | outside high-level mode the stream descriptor is irrelevant: the list is the output fields, plus `err error` for a function |
| GoSignatures.ErrorEntryOnlyForFunctions | go/go_common.py:69-72 | turning a callback into a function adds exactly one entry, `err error`, at the end |
| GoSignatures.ParameterElements | go/go_common.py:77-88 | a callback lists all its elements; a function lists exactly its input elements; the high-level element list is used in high-level mode |
| GoSignatures.InputsOfAppend | go/go_common.py:80-86 | the inputs keep the packet's order: the inputs of two runs of elements are those of the first run followed by those of the second |
| GoSignatures.InputsOfSingle | go/go_common.py:81-82 | a single element is a parameter of a function exactly when it is an input |
| GoSignatures.GoParameters | go/go_common.py:77-88 | the parameter list is empty exactly when no element is listed |
| GoSignatures.ParametersCons | go/go_common.py:77-88 | in order: a listed first element (any element of a callback, an input of a function) puts its `name type` in front of the rest's list, joined by `, `; a function's output element adds nothing |
| GoSignatures.ParametersAndResultsPartition | go/go_common.py:80-82 | a function's elements split completely into its parameters and its results |
| GoSignatures.ReturnType | go/go_common.py:90-102 | `()` without outputs; the single output's own type for a packet without a stream; the packet's result-type name otherwise |
| GoSignatures.StreamInfoReturnType | go/go_common.py:104-112 | the same choice made over the low-level outputs only |
| GoSignatures.StreamInfoAgreesWithReturnType | go/go_common.py:90-112 | for a packet without a stream whose outputs are all low-level, both result types agree |
| GoSignatures.HighLevelPayloadType | go/go_common.py:74-75 | fails exactly when there is no low-level chunk-data output; otherwise gives the first such output's constant-group name or scalar Go type |
| GoSignatures.SelectMembers | go/go_common.py:127-143 | the reference selection keeps exactly the wanted traits |
| GoSignatures.SelectRanked | go/go_common.py:127-143 | the reference selection keeps the canonical order |
| GoSignatures.TraitListSelects | go/go_common.py:128-141 | the list built by appending equals the selection of the wanted traits from the canonical order |
| GoSignatures.TraitListContents | go/go_common.py:128-141 | `Clone` always; `Copy` iff there are no strings; `Debug`/`Default`/`PartialEq` iff the arrays are small; `Eq`/`Hash` iff small and exact; in canonical order |
| GoSignatures.DerivableTraits | go/go_common.py:127-143 | over the inspected outputs: `Copy` iff no Go type mentions `String`; the comparison traits iff no cardinality exceeds 32; `Eq` and `Hash` together and only when no Go type contains `f`; ranked order |
| GoSignatures.DerivableTraitNames | go/go_common.py:127-143 | the returned names are the derivable traits' names, one per trait and in the same order |
| GoSignatures.TraitNamesListed | go/go_common.py:127-143 | a trait's name is returned exactly when the trait is derivable |
| GoSignatures.PlainTypeLetters | go/go_common.py:130-139 | without a constant group, an element's Go type never contains `S` and contains `f` exactly for floats |
| GoSignatures.TraitsOfPlainResults | go/go_common.py:127-143 | without constant groups, `Copy` is always derived, and `Eq` exactly when every output has cardinality at most 32 and is not a float |
| GoDoc.Separator | go/go_common.py:175 | the rule under a header with `n` columns has `n - 1` pipes and no quotes or newlines |
| GoDoc.SeparatorColumns | go/go_common.py:175 | split at its pipes, the rule for `n` columns is exactly `n` cells ` --- ` |
| GoDoc.StepOn | go/go_common.py:162-184 | a quote-free line only ever produces quote-free output lines |
| GoDoc.RunDropsQuotes | go/go_common.py:159-184 | no output line of the loop holds a double quote |
| GoDoc.RewriteTables | go/go_common.py:152-186 | the rewritten text holds no double quote |
| GoDoc.StepOutside | go/go_common.py:159-184 | outside a table, a line that is not the directive comes out with only its double quotes removed, and the state is kept |
| GoDoc.OutsideTablesDropQuotes | go/go_common.py:159-184 | from any state outside a table, text without a `.. csv-table::` line comes out line for line, with only its double quotes removed |
| GoDoc.RunAppend | go/go_common.py:159-184 | the loop over two runs of lines is the loop over the first, continued from its final state over the second |
| GoDoc.StepLineUnquoted | go/go_common.py:160 | a line and its quote-free form are treated alike |
| GoDoc.OpenStep | go/go_common.py:162-163 | in any state, a line that strips to `.. csv-table::` opens a table head and emits nothing |
| GoDoc.OpenRun | go/go_common.py:159-163 | a run that starts with the directive is the run of the remaining lines from the opened head |
| GoDoc.HeaderStep | go/go_common.py:160-168 | in any head state, a one-space-indented `:header:` line whose quote-free header does not strip to nothing, trailing whitespace included, loses its double quotes, sets the column count to the commas of the quote-free header plus one, and emits that header with pipes for commas |
| GoDoc.QuotedHeaderPair | configs/bricklet_sound_intensity_config.py:129 | a header of two quoted names, as the device descriptions write it, loses its quotes, satisfies `HeaderStep` and gives two columns |
| GoDoc.WidthsStep | go/go_common.py:160-170 | in any head state, a line whose quote-free, stripped form starts with `:widths:`, at any indentation, is dropped and changes nothing |
| GoDoc.WidthsLayout | go/go_common.py:160-169 | a one-space-indented `:widths:` option, with any text after it, is a line `WidthsStep` drops |
| GoDoc.CloseHeadStep | go/go_common.py:160-175 | in any head state, a line that is empty or whitespace once its quotes are removed moves to the body and emits the rule for the column count |
| GoDoc.BodyRows | go/go_common.py:178-182 | body rows come out with pipes for commas and the state unchanged, and any line that is empty or whitespace once its quotes are removed ends the table with an empty line |
| GoDoc.CsvTableBlock | go/go_common.py:152-186 | from any state, a complete table block, quoted header included, becomes the quote-free header row, the rule with the header's column count, the rows with pipes for commas and a closing blank line, and the loop leaves the table |
| GoDoc.UnquotedLines | go/go_common.py:160 | each line of the quote-stripped text is the matching input line with its double quotes removed |
| GoDoc.CellRowsLines | go/go_common.py:160-182 | each rewritten body row is the matching input row with its quotes removed and pipes for commas |
| GoDoc.ProseThenTable | go/go_common.py:152-186 | from any state outside a table, prose without a directive followed by a table block: the prose only loses its quotes and the table is rewritten as above |
| GoDoc.CsvTableAligned | go/go_common.py:164-175 | from any state, in the rewritten block the header row and the rule under it have the same number of columns |
| GoDoc.DoublyIndentedHeader | go/go_common.py:164-165 | a `:header:` line indented by two spaces is sliced at the wrong place, so the emitted row keeps `: ` in front of the header text |
| GoDoc.CommentBlock | go/go_common.py:200 | the comment's lines are exactly the stripped text's lines, each with `// ` in front |
| GoDoc.FormattedDoc | go/go_common.py:145-200 | every line of the formatted documentation starts with `// ` |
| Text.SplitJoin | go/go_common.py:186 | joining lines without newlines by `\n` and splitting again gives the same lines |
| Text.JoinSplit | go/go_common.py:153 | splitting at `\n` and joining again gives the original text |

## Left out

- The regular-expression link rewrite (go/go_common.py:150) is a parameter of `GoDoc.FormattedDoc`. Regular expressions are not modelled.
- The shared framework's steps are parameters of `GoDoc.FormattedDoc`. These are `specialize_doc_rst_links` (go/go_common.py:52, 187), `handle_rst_param`, `handle_rst_word`, `handle_rst_substitutions` and `format_since_firmware` (go/go_common.py:195-198). `common.py` is not part of this model.
- `select_lang` (go/go_common.py:146) is not modelled; `GoDoc.FormattedDoc` takes the already selected text.
- `common.format_float` (go/go_common.py:214-215) is a parameter of `GoValues.FormatValue`. Float formatting is foreign code.
- The framework's derived inputs are fields of the records rather than computations:
  - `get_elements(high_level=True)` becomes `Packet.highLevelElements`.
  - `get_name(skip=-2)` becomes `Packet.linkName`.
  - The stream descriptor becomes `Packet.highLevel`.
  - The constant group of an element's first index becomes `Element.constantGroup`.
- Stream expansion and chunk sizing happen in the framework and are not modelled.
- `GoTypes.ElementGoType`: the `context in ['default', 'meta']` assertion (go/go_common.py:238) cannot fail, because the context is a two-valued datatype.
- `GoTypes.ElementGoType`: the `isinstance(cardinality, int)` half of the assertion at go/go_common.py:239 is carried by the type. Only the `> 0` half is an error path.
- `GoValues.FormatValue`: a Python value is a list, boolean, integer or string. Float values and other Python objects are not modelled. A list with a float type goes through `formatFloat` item by item, as in the source.
- `GoValues.FormatValue`: `value.replace` on a non-string raises `AttributeError` in the source. This is modelled as the `NotAString` error.
- The device description files under `configs/`, the openHAB handlers and the Saleae packaging script are declarative data, framework plumbing or file I/O, and are not part of this model.
- `GoDoc.HeaderStep`: stated only for a `:header:` line indented by one space. The source slices the unstripped line (go/go_common.py:165), so the emitted row depends on the indentation. Two spaces are stated separately (`GoDoc.DoublyIndentedHeader`); deeper indentations are not stated. A header that is blank once its quotes are removed is not stated either: that line strips to `:header:`, which fails the test of line 164, so it goes down the generic head-row branch.
- `GoDoc.CsvTableBlock`: stated for blocks laid out the way the device descriptions lay them out. Both options are indented by one space, the header is not blank once its quotes are removed, the two blank lines are empty, and no row is blank or another directive. Quotes anywhere in the block are allowed, the widths text is arbitrary, and the block may start in any state. Other layouts are covered step by step. `GoDoc.OpenStep` holds in any state. `GoDoc.WidthsStep` and `GoDoc.CloseHeadStep` hold in any head state and at any indentation. `GoDoc.BodyRows` holds from the body state, for any closing line that is blank once stripped. The quote and pass-through lemmas also apply. A header line at another indentation is covered only as the previous line says.
- `GoNames.PacketTypeName`: models `get_go_type_name` at its default `skip=0`, the only value the callers in go/go_common.py (lines 98, 102, 112) pass. Other `skip` values need the framework's `get_name(skip)`, and only `skip=-2` is modelled, as `Packet.linkName`.

## Notes on the source

- The `:header:` slice (go/go_common.py:165) cuts `len(':header: ')` characters off the unstripped line. For the usual one-space indentation the emitted header row keeps a leading space. With deeper indentation the cut lands inside the tag: the row starts with `: ` for two spaces (`GoDoc.DoublyIndentedHeader`), `r: ` for three and `er: ` for four. This is modelled as written.
- Keyword escaping is not injective. `break` and `break_` both become `break_` (`GoNames.EscapeCollision`).
- The char and string literals of `format_value` (go/go_common.py:217-221) escape only the quote character, never a backslash. A value holding a backslash therefore renders as a literal that Go reads as an escape sequence, and a value ending in a backslash escapes the literal's closing quote. `GoValues.Unescape` undoes exactly the escaping the source performs; it is not a Go string-literal reader.
- The `Copy` test looks for `String` in Go type names. No Go type outside a constant group contains it, so `Copy` is always derived for such results (`GoSignatures.TraitsOfPlainResults`).

=== FILE: go_doc.dfy ===
/** Go documentation comments: the line-by-line rewriting of reStructuredText
    `.. csv-table::` blocks into pipe tables, and the `// ` comment prefix. */
module GoDoc {
  import opened Text

  /** What the rewriter remembers between lines. */
  datatype TableState = TableState(inHead: bool, inBody: bool, colCount: nat)

  const Start := TableState(false, false, 0)

  /** The lines one input line turns into, and the state after it. */
  datatype Step = Step(state: TableState, out: seq<String>)

  const CsvTable: String := ".. csv-table::"
  const HeaderTag: String := ":header: "
  const WidthsTag: String := ":widths:"

  /** A csv row as a pipe-table row. */
  function Cells(line: String): String {
    ReplaceChar(line, ',', "|")
  }

  /** `n` copies of ` --- ` joined by `|`: the rule under a table's header. */
  function Separator(n: nat): (r: String)
    ensures n >= 1 ==> Count(r, '|') == n - 1
    ensures '"' !in r && '\n' !in r
  {
    if n == 0 then []
    else if n == 1 then " --- "
    else
      var rest := Separator(n - 1);
      CountAppend(" --- |", rest, '|');
      assert Count(" --- |", '|') == 1;
      " --- |" + rest
  }

  /** Split at its pipes, the rule has one ` --- ` cell per column. */
  lemma SeparatorColumns(n: nat)
    requires n >= 1
    ensures Split(Separator(n), '|') == seq(n, _ => " --- ")
  {
    SeparatorJoin(n);
    SplitJoin(seq(n, _ => " --- "), '|');
  }

  lemma {:induction false} SeparatorJoin(n: nat)
    requires n >= 1
    ensures Separator(n) == Join(seq(n, _ => " --- "), "|")
  {
    if n > 1 {
      SeparatorJoin(n - 1);
      var cells := seq(n, _ => " --- ");
      assert cells[1..] == seq(n - 1, _ => " --- ");
      assert Join(cells, "|") == " --- " + "|" + Join(cells[1..], "|");
    }
  }

  /** One iteration of the loop over the documentation lines. */
  function StepLine(st: TableState, raw: String): Step {
    var line := RemoveChar(raw, '"');
    StepOn(st, line, Strip(line))
  }

  /** The branches of one iteration, given the quote-free line and its
      stripped form. */
  function StepOn(st: TableState, line: String, stripped: String): (r: Step)
    ensures '"' !in line ==> forall l :: l in r.out ==> '"' !in l
  {
    if stripped == CsvTable then Step(st.(inHead := true), [])
    else if StartsWith(stripped, HeaderTag) && st.inHead then
      var header := Drop(line, |HeaderTag|);
      assert forall c :: c in header ==> c in line;
      ReplaceCharMembers(header, ',', "|");
      Step(st.(colCount := Count(header, ',') + 1), [Cells(header)])
    else if StartsWith(stripped, WidthsTag) && st.inHead then Step(st, [])
    else if |stripped| == 0 && st.inHead then
      Step(st.(inHead := false, inBody := true), [Separator(st.colCount)])
    else if st.inHead then ReplaceCharMembers(line, ',', "|"); Step(st, [Cells(line)])
    else if |stripped| == 0 && st.inBody then Step(st.(inBody := false), [""])
    else if st.inBody then ReplaceCharMembers(line, ',', "|"); Step(st, [Cells(line)])
    else Step(st, [line])
  }

  /** The whole loop, from state `st` over `lines`. */
  function Run(st: TableState, lines: seq<String>): Step
    decreases |lines|
  {
    if |lines| == 0 then Step(st, [])
    else
      var first := StepLine(st, lines[0]);
      var rest := Run(first.state, lines[1..]);
      Step(rest.state, first.out + rest.out)
  }

  /** No line the loop emits holds a double quote. */
  lemma {:induction false} RunDropsQuotes(st: TableState, lines: seq<String>)
    ensures forall l :: l in Run(st, lines).out ==> '"' !in l
    decreases |lines|
  {
    if |lines| > 0 {
      var first := StepLine(st, lines[0]);
      var line := RemoveChar(lines[0], '"');
      assert first == StepOn(st, line, Strip(line));
      RunDropsQuotes(first.state, lines[1..]);
    }
  }

  /** The table-rewriting part of `get_go_formatted_doc`. */
  function RewriteTables(text: String): (r: String)
    ensures '"' !in r
  {
    var out := Run(Start, Split(text, '\n')).out;
    RunDropsQuotes(Start, Split(text, '\n'));
    NoCharInJoin(out, '\n', '"');
    Join(out, "\n")
  }

  lemma {:induction false} NoCharInJoin(parts: seq<String>, sep: char, c: char)
    requires c != sep
    requires forall l :: l in parts ==> c !in l
    ensures c !in Join(parts, [sep])
  {
    if |parts| > 1 {
      NoCharInJoin(parts[1..], sep, c);
      assert parts[0] in parts;
    }
  }

  /** The lines with their double quotes removed. */
  function Unquoted(lines: seq<String>): (r: seq<String>)
    ensures |r| == |lines|
  {
    if |lines| == 0 then [] else [RemoveChar(lines[0], '"')] + Unquoted(lines[1..])
  }

  /** Each line in turn, with its double quotes removed. */
  lemma {:induction false} UnquotedLines(lines: seq<String>)
    ensures forall i :: 0 <= i < |lines| ==> Unquoted(lines)[i] == RemoveChar(lines[i], '"')
  {
    if |lines| > 0 {
      UnquotedLines(lines[1..]);
    }
  }

  /** Outside a table, a line other than the directive only loses its
      double quotes, and the state stays as it is. */
  lemma StepOutside(st: TableState, raw: String)
    requires !st.inHead && !st.inBody && Strip(RemoveChar(raw, '"')) != CsvTable
    ensures StepLine(st, raw) == Step(st, [RemoveChar(raw, '"')])
  {
  }

  /** Outside a table, text without a `.. csv-table::` line only loses its
      double quotes. */
  lemma {:induction false} OutsideTablesDropQuotes(st: TableState, lines: seq<String>)
    requires !st.inHead && !st.inBody
    requires forall l :: l in lines ==> Strip(RemoveChar(l, '"')) != CsvTable
    ensures Run(st, lines) == Step(st, Unquoted(lines))
  {
    if |lines| > 0 {
      assert lines[0] in lines;
      assert forall l :: l in lines[1..] ==> l in lines;
      OutsideTablesDropQuotes(st, lines[1..]);
      RunCons(st, lines[0], lines[1..]);
      StepOutside(st, lines[0]);
      assert [lines[0]] + lines[1..] == lines;
    }
  }

  /** The loop over two runs of lines is the loop over the first, continued
      from where it stopped over the second. */
  lemma RunAppend(st: TableState, a: seq<String>, b: seq<String>)
    ensures var first := Run(st, a);
            var second := Run(first.state, b);
            Run(st, a + b) == Step(second.state, first.out + second.out)
  {
    RunIsFold(st, a + b);
    RunIsFold(st, a);
    RunIsFold(Run(st, a).state, b);
    FoldAppend(StepLine, st, a, b);
  }

  /** The loop over the lines with any step function in place of `StepLine`. */
  ghost function Fold(f: (TableState, String) -> Step, st: TableState, lines: seq<String>): Step
    decreases |lines|
  {
    if |lines| == 0 then Step(st, [])
    else
      var first := f(st, lines[0]);
      var rest := Fold(f, first.state, lines[1..]);
      Step(rest.state, first.out + rest.out)
  }

  lemma {:induction false} RunIsFold(st: TableState, lines: seq<String>)
    ensures Run(st, lines) == Fold(StepLine, st, lines)
    decreases |lines|
  {
    if |lines| > 0 {
      RunIsFold(StepLine(st, lines[0]).state, lines[1..]);
    }
  }

  lemma {:induction false} FoldAppend(f: (TableState, String) -> Step, st: TableState,
                                      a: seq<String>, b: seq<String>)
    ensures var first := Fold(f, st, a);
            var second := Fold(f, first.state, b);
            Fold(f, st, a + b) == Step(second.state, first.out + second.out)
    decreases |a|
  {
    if |a| == 0 {
      assert a + b == b;
      assert [] + Fold(f, st, b).out == Fold(f, st, b).out;
    } else {
      var step := f(st, a[0]);
      FoldAppend(f, step.state, a[1..], b);
      assert (a + b)[0] == a[0] && (a + b)[1..] == a[1..] + b;
      var tail := Fold(f, step.state, a[1..]);
      var second := Fold(f, tail.state, b);
      assert step.out + (tail.out + second.out) == (step.out + tail.out) + second.out;
    }
  }

  /** Prose followed by a table block, from any state outside a table: the
      prose only loses its quotes, and the table is rewritten as
      `CsvTableBlock` describes. */
  lemma ProseThenTable(st: TableState, prose: seq<String>, directive: String, header: String,
                       widths: String, rows: seq<String>)
    requires !st.inHead && !st.inBody
    requires forall l :: l in prose ==> Strip(RemoveChar(l, '"')) != CsvTable
    requires Opens(directive) && TableRows(rows)
    requires NonBlank(RemoveChar(header, '"'))
    ensures var h := RemoveChar(header, '"');
            var k := Count(h, ',') + 1;
            Run(st, prose + TableBlock(directive, header, widths, rows))
              == Step(TableState(false, false, k),
                      Unquoted(prose) + ([" " + Cells(h)] + ([Separator(k)] + (CellRows(rows) + [""]))))
  {
    OutsideTablesDropQuotes(st, prose);
    CsvTableBlock(st, directive, header, widths, rows);
    RunAppend(st, prose, TableBlock(directive, header, widths, rows));
  }

  /** Stripping `pad` + `core`, where `pad` is whitespace and `core` starts
      with something else, keeps `core` up to any character of it that is
      not whitespace. */
  lemma StripIndentedKeeps(pad: String, core: String, k: nat)
    requires forall i :: 0 <= i < |pad| ==> IsSpace(pad[i])
    requires k < |core| && !IsSpace(core[0]) && !IsSpace(core[k])
    ensures k < |Strip(pad + core)| && Strip(pad + core)[..k + 1] == core[..k + 1]
  {
    var s := pad + core;
    assert s[|pad|] == core[0];
    assert forall i :: 0 <= i < |pad| ==> s[i] == pad[i];
    var l := LStrip(s);
    LStripRemovesSpace(s);
    assert |l| > 0 ==> l[0] == s[|s| - |l|];
    assert l == core;
    RStripRemovesSpace(core);
  }

  /** One step of the loop, unfolded. */
  lemma RunCons(st: TableState, line: String, lines: seq<String>)
    ensures var first := StepLine(st, line);
            var rest := Run(first.state, lines);
            Run(st, [line] + lines) == Step(rest.state, first.out + rest.out)
  {
    assert ([line] + lines)[1..] == lines;
  }

  /** The rows of a table body, quotes removed and commas turned into pipes. */
  function CellRows(rows: seq<String>): (r: seq<String>)
    ensures |r| == |rows|
  {
    if |rows| == 0 then [] else [Cells(RemoveChar(rows[0], '"'))] + CellRows(rows[1..])
  }

  /** Each row in turn, quotes removed and commas turned into pipes. */
  lemma {:induction false} CellRowsLines(rows: seq<String>)
    ensures forall i :: 0 <= i < |rows| ==> CellRows(rows)[i] == Cells(RemoveChar(rows[i], '"'))
  {
    if |rows| > 0 {
      CellRowsLines(rows[1..]);
    }
  }

  /** Text that does not strip to nothing: after `:header: `, it keeps the
      whole tag in the stripped line. */
  predicate NonBlank(s: String) {
    |Strip(s)| > 0
  }

  /** Text that does not strip to nothing has a character other than whitespace. */
  lemma NonBlankAt(s: String) returns (i: nat)
    requires NonBlank(s)
    ensures i < |s| && !IsSpace(s[i])
  {
    var l := LStrip(s);
    LStripRemovesSpace(s);
    i := |s| - |l|;
    assert l[0] == s[i];
  }

  /** A line that strips to the table directive once its quotes are gone. */
  predicate Opens(directive: String) {
    Strip(RemoveChar(directive, '"')) == CsvTable
  }

  /** Rows that all belong to a table body. */
  predicate TableRows(rows: seq<String>) {
    forall row :: row in rows ==> BodyRow(row)
  }

  /** A row a table body keeps: not blank and not a new table directive. */
  predicate BodyRow(row: String) {
    var line := RemoveChar(row, '"');
    |Strip(line)| > 0 && Strip(line) != CsvTable
  }

  lemma StepBodyRow(k: nat, row: String)
    requires BodyRow(row)
    ensures StepLine(TableState(false, true, k), row)
         == Step(TableState(false, true, k), [Cells(RemoveChar(row, '"'))])
  {
  }

  /** A line that is empty or whitespace once its quotes are removed. */
  predicate Blank(line: String) {
    |Strip(RemoveChar(line, '"'))| == 0
  }

  lemma StepBlank(st: TableState, blank: String)
    requires !st.inHead && st.inBody && Blank(blank)
    ensures StepLine(st, blank) == Step(st.(inBody := false), [""])
  {
  }

  /** Body rows of an open table become pipe rows; a line that is blank
      once stripped closes the table and emits an empty line. */
  lemma {:induction false} BodyRows(k: nat, rows: seq<String>, blank: String)
    requires TableRows(rows) && Blank(blank)
    ensures Run(TableState(false, true, k), rows + [blank])
         == Step(TableState(false, false, k), CellRows(rows) + [""])
  {
    var st := TableState(false, true, k);
    if |rows| == 0 {
      assert rows + [blank] == [blank] + [];
      StepBlank(st, blank);
      RunConsKnown(st, blank, [], TableState(false, false, k), [""], Step(TableState(false, false, k), []));
    } else {
      var rest := rows[1..];
      assert rows[0] in rows;
      assert forall row :: row in rest ==> row in rows;
      BodyRows(k, rest, blank);
      StepBodyRow(k, rows[0]);
      var cells := Cells(RemoveChar(rows[0], '"'));
      RunConsKnown(st, rows[0], rest + [blank], st, [cells],
                   Step(TableState(false, false, k), CellRows(rest) + [""]));
      HeadThenTail(rows, [blank]);
      ConsAppend(cells, CellRows(rest), [""]);
    }
  }

  lemma HeadThenTail<T>(s: seq<T>, t: seq<T>)
    requires |s| > 0
    ensures s + t == [s[0]] + (s[1..] + t)
  {
  }

  lemma ConsAppend<T>(x: T, s: seq<T>, t: seq<T>)
    ensures [x] + (s + t) == ([x] + s) + t
  {
  }

  /** One iteration, once the quote-free and stripped forms of the line are known. */
  lemma StepLineOn(st: TableState, raw: String, line: String, stripped: String)
    requires RemoveChar(raw, '"') == line && Strip(line) == stripped
    ensures StepLine(st, raw) == StepOn(st, line, stripped)
  {
  }

  /** A one-space-indented `:header:` line in a table head: the header's
      quotes go, the column count becomes its commas plus one, whatever it
      was, and the header is emitted with pipes for commas. */
  lemma HeaderStep(st: TableState, header: String)
    requires st.inHead && NonBlank(RemoveChar(header, '"'))
    ensures var h := RemoveChar(header, '"');
            StepLine(st, " " + HeaderTag + header)
              == Step(st.(colCount := Count(h, ',') + 1), [" " + Cells(h)])
  {
    var h := RemoveChar(header, '"');
    UnquoteAfter(" " + HeaderTag, header);
    StepLineUnquoted(st, " " + HeaderTag + header);
    HeaderLine(st, h);
    HeaderStepOn(st, h, Strip(" " + HeaderTag + h));
  }

  /** A header written as the device descriptions write it, two quoted column
      names such as `"Option", "Description"`, meets the condition of
      `HeaderStep` and gives a table of two columns. */
  lemma QuotedHeaderPair(a: String, b: String)
    requires '"' !in a && ',' !in a && '"' !in b && ',' !in b
    ensures var h := RemoveChar("\"" + a + "\", \"" + b + "\"", '"');
            h == a + ", " + b && NonBlank(h) && Count(h, ',') + 1 == 2
  {
    UnquotedPair(a, b);
    PairCount(a, b);
    var h := a + ", " + b;
    assert h[|a|] == ',';
    NonSpaceNonBlank(h, |a|);
  }

  /** Text with a character other than whitespace does not strip to nothing. */
  lemma NonSpaceNonBlank(s: String, i: nat)
    requires i < |s| && !IsSpace(s[i])
    ensures NonBlank(s)
  {
    LStripRemovesSpace(s);
    RStripRemovesSpace(LStrip(s));
  }

  lemma UnquotedPair(a: String, b: String)
    requires '"' !in a && '"' !in b
    ensures RemoveChar("\"" + a + "\", \"" + b + "\"", '"') == a + ", " + b
  {
    var qa, qb := "\"" + a + "\"", "\"" + b + "\"";
    assert "\"" + a + "\", \"" + b + "\"" == qa + (", " + qb);
    QuotedName(a);
    QuotedName(b);
    ReplaceCharAppend(qa, ", " + qb, '"', []);
    UnquoteAfter(", ", qb);
  }

  lemma PairCount(a: String, b: String)
    requires ',' !in a && ',' !in b
    ensures Count(a + ", " + b, ',') == 1
  {
    assert a + ", " + b == a + (", " + b);
    CountAppend(a, ", " + b, ',');
    CountAbsent(a, ',');
    CountAppend(", ", b, ',');
    CountAbsent(b, ',');
    assert Count(", ", ',') == 1;
  }

  /** A quoted name loses exactly its two quotes. */
  lemma QuotedName(name: String)
    requires '"' !in name
    ensures RemoveChar("\"" + name + "\"", '"') == name
  {
    ReplaceCharAppend("\"" + name, "\"", '"', []);
    UnquoteAfter("", "\"" + name);
    ReplaceCharAppend("\"", name, '"', []);
    NoQuoteIdentity(name);
  }

  /** The loop removes a line's double quotes before it looks at the line, so
      a line and its quote-free form step alike. */
  lemma StepLineUnquoted(st: TableState, raw: String)
    ensures StepLine(st, raw) == StepLine(st, RemoveChar(raw, '"'))
  {
    NoQuoteUnchanged(RemoveChar(raw, '"'));
  }

  /** Removing the quotes of a quote-free prefix followed by `s` only touches `s`. */
  lemma UnquoteAfter(prefix: String, s: String)
    requires '"' !in prefix
    ensures RemoveChar(prefix + s, '"') == prefix + RemoveChar(s, '"')
  {
    ReplaceCharAppend(prefix, s, '"', []);
    NoQuoteIdentity(prefix);
  }

  /** A one-space-indented header line strips to something that starts
      with the whole `:header: ` tag. */
  lemma HeaderLine(st: TableState, header: String)
    requires '"' !in header && NonBlank(header)
    ensures var line := " " + HeaderTag + header;
            StepLine(st, line) == StepOn(st, line, Strip(line)) && StartsWith(Strip(line), HeaderTag)
  {
    var core := HeaderTag + header;
    var line := " " + HeaderTag + header;
    assert line == " " + core;
    var i := NonBlankAt(header);
    var k := |HeaderTag| + i;
    assert core[0] == ':' && core[k] == header[i];
    StripIndentedKeeps(" ", core, k);
    assert Strip(line)[..|HeaderTag|] == core[..k + 1][..|HeaderTag|];
    assert '"' !in line;
    NoQuoteUnchanged(line);
    StepLineOn(st, line, line, Strip(line));
  }

  lemma HeaderStepOn(st: TableState, header: String, stripped: String)
    requires st.inHead && StartsWith(stripped, HeaderTag)
    ensures StepOn(st, " " + HeaderTag + header, stripped)
         == Step(st.(colCount := Count(header, ',') + 1), [" " + Cells(header)])
  {
    var line := " " + HeaderTag + header;
    assert stripped[0] == ':' && stripped != CsvTable;
    assert Drop(line, |HeaderTag|) == " " + header;
    LeadingSpace(header);
  }

  lemma LeadingSpace(s: String)
    ensures Cells(" " + s) == " " + Cells(s)
    ensures Count(" " + s, ',') == Count(s, ',')
  {
    assert (" " + s)[0] == ' ';
    assert (" " + s)[1..] == s;
  }

  /** In a table head, a line that strips to something starting with
      `:widths:`, at any indentation and quoted or not, is dropped and changes
      nothing. */
  lemma WidthsStep(st: TableState, raw: String)
    requires st.inHead && StartsWith(Strip(RemoveChar(raw, '"')), WidthsTag)
    ensures StepLine(st, raw) == Step(st, [])
  {
    var stripped := Strip(RemoveChar(raw, '"'));
    assert stripped[0] == ':' && stripped[1] == 'w';
    assert stripped != CsvTable;
    assert !StartsWith(stripped, HeaderTag);
  }

  /** The widths option as the device descriptions write it, indented by one
      space, is such a line. */
  lemma WidthsLayout(widths: String)
    ensures StartsWith(Strip(RemoveChar(" " + WidthsTag + " " + widths, '"')), WidthsTag)
  {
    var w := RemoveChar(widths, '"');
    var core := WidthsTag + " " + w;
    UnquoteAfter(" " + WidthsTag + " ", widths);
    assert " " + WidthsTag + " " + w == " " + core;
    var k := |WidthsTag| - 1;
    assert core[0] == ':' && core[k] == ':';
    StripIndentedKeeps(" ", core, k);
    assert core[..k + 1] == WidthsTag;
  }

  /** From any state, a line that strips to the directive opens a table head
      and keeps the rest of the state. */
  lemma OpenStep(st: TableState, directive: String)
    requires Opens(directive)
    ensures StepLine(st, directive) == Step(st.(inHead := true), [])
  {
  }

  /** In a table head, a line that is blank once stripped closes the head,
      opens the body and emits the rule for the column count. */
  lemma CloseHeadStep(st: TableState, raw: String)
    requires st.inHead && Blank(raw)
    ensures StepLine(st, raw) == Step(st.(inHead := false, inBody := true), [Separator(st.colCount)])
  {
  }

  /** A table block as the device descriptions write it: the directive, the
      header and widths options indented by one space, a blank line, the
      rows, and a blank line that ends the table. */
  function TableBlock(directive: String, header: String, widths: String, rows: seq<String>): seq<String> {
    [directive] + ([" " + HeaderTag + header] + TableTail(widths, rows))
  }

  /** The block after its header line. */
  function TableTail(widths: String, rows: seq<String>): seq<String> {
    [" " + WidthsTag + " " + widths] + ([""] + (rows + [""]))
  }

  /** A well-formed table block, from any state, becomes a header row, a
      rule with as many columns as the header, the body rows with pipes for
      commas, and a closing blank line; the loop leaves the table. Double
      quotes anywhere in the block are dropped first. */
  lemma CsvTableBlock(st: TableState, directive: String, header: String, widths: String,
                      rows: seq<String>)
    requires Opens(directive) && TableRows(rows)
    requires NonBlank(RemoveChar(header, '"'))
    ensures var h := RemoveChar(header, '"');
            var k := Count(h, ',') + 1;
            Run(st, TableBlock(directive, header, widths, rows))
              == Step(TableState(false, false, k), [" " + Cells(h)] + ([Separator(k)] + (CellRows(rows) + [""])))
  {
    var k := Count(RemoveChar(header, '"'), ',') + 1;
    WidthsThenRest(TableState(true, st.inBody, k), widths, rows);
    OpenThenHeader(st, directive, header, TableTail(widths, rows));
  }

  /** The directive and the header line, followed by any lines: these run
      from the head the header leaves. */
  lemma OpenThenHeader(st: TableState, directive: String, header: String, lines: seq<String>)
    requires Opens(directive) && NonBlank(RemoveChar(header, '"'))
    ensures var h := RemoveChar(header, '"');
            var rest := Run(TableState(true, st.inBody, Count(h, ',') + 1), lines);
            Run(st, [directive] + ([" " + HeaderTag + header] + lines))
              == Step(rest.state, [" " + Cells(h)] + rest.out)
  {
    var h := RemoveChar(header, '"');
    var head := st.(inHead := true);
    var rest := Run(TableState(true, st.inBody, Count(h, ',') + 1), lines);
    assert head.(colCount := Count(h, ',') + 1) == TableState(true, st.inBody, Count(h, ',') + 1);
    HeaderRun(head, header, lines, rest);
    OpenRun(st, directive, [" " + HeaderTag + header] + lines,
            Step(rest.state, [" " + Cells(h)] + rest.out));
  }

  /** The directive followed by lines whose run from the opened head is known. */
  lemma OpenRun(st: TableState, directive: String, lines: seq<String>, rest: Step)
    requires Opens(directive) && Run(st.(inHead := true), lines) == rest
    ensures Run(st, [directive] + lines) == rest
  {
    OpenStep(st, directive);
    RunConsSilent(st, directive, lines, st.(inHead := true), rest);
  }

  /** In the rewritten block the header row and the rule under it have
      the same number of columns. */
  lemma CsvTableAligned(st: TableState, directive: String, header: String, widths: String,
                        rows: seq<String>)
    requires Opens(directive) && TableRows(rows) && '|' !in header
    requires NonBlank(RemoveChar(header, '"'))
    ensures var out := Run(st, TableBlock(directive, header, widths, rows)).out;
            |out| >= 2 && Count(out[0], '|') == Count(out[1], '|')
  {
    var h := RemoveChar(header, '"');
    CsvTableBlock(st, directive, header, widths, rows);
    ReplaceCharMembers(header, '"', []);
    AlignedOut(h, Run(st, TableBlock(directive, header, widths, rows)).out, CellRows(rows) + [""]);
  }

  lemma AlignedOut(h: String, out: seq<String>, body: seq<String>)
    requires '|' !in h
    requires out == [" " + Cells(h)] + ([Separator(Count(h, ',') + 1)] + body)
    ensures |out| >= 2 && Count(out[0], '|') == Count(out[1], '|')
  {
    HeaderPipes(h);
  }

  /** The header line followed by lines whose run is known. */
  lemma HeaderRun(st: TableState, header: String, lines: seq<String>, rest: Step)
    requires st.inHead && NonBlank(RemoveChar(header, '"'))
    requires Run(st.(colCount := Count(RemoveChar(header, '"'), ',') + 1), lines) == rest
    ensures Run(st, [" " + HeaderTag + header] + lines)
         == Step(rest.state, [" " + Cells(RemoveChar(header, '"'))] + rest.out)
  {
    var h := RemoveChar(header, '"');
    HeaderStep(st, header);
    RunConsKnown(st, " " + HeaderTag + header, lines,
                 st.(colCount := Count(h, ',') + 1), [" " + Cells(h)], rest);
  }

  /** One step of the loop followed by a known run of the rest. */
  lemma RunConsKnown(st: TableState, line: String, lines: seq<String>,
                     next: TableState, out: seq<String>, rest: Step)
    requires StepLine(st, line) == Step(next, out) && Run(next, lines) == rest
    ensures Run(st, [line] + lines) == Step(rest.state, out + rest.out)
  {
    RunCons(st, line, lines);
  }

  /** A step that emits nothing, followed by a known run of the rest. */
  lemma RunConsSilent(st: TableState, line: String, lines: seq<String>, next: TableState, rest: Step)
    requires StepLine(st, line) == Step(next, []) && Run(next, lines) == rest
    ensures Run(st, [line] + lines) == rest
  {
    RunCons(st, line, lines);
    assert [] + rest.out == rest.out;
  }

  lemma WidthsThenRest(st: TableState, widths: String, rows: seq<String>)
    requires st.inHead && TableRows(rows)
    ensures Run(st, TableTail(widths, rows))
         == Step(TableState(false, false, st.colCount), [Separator(st.colCount)] + (CellRows(rows) + [""]))
  {
    var rest := Step(TableState(false, false, st.colCount), [Separator(st.colCount)] + (CellRows(rows) + [""]));
    CloseThenRows(st, rows);
    WidthsLayout(widths);
    WidthsStep(st, " " + WidthsTag + " " + widths);
    RunConsSilent(st, " " + WidthsTag + " " + widths, [""] + (rows + [""]), st, rest);
  }

  lemma CloseThenRows(st: TableState, rows: seq<String>)
    requires st.inHead && TableRows(rows)
    ensures Run(st, [""] + (rows + [""]))
         == Step(TableState(false, false, st.colCount), [Separator(st.colCount)] + (CellRows(rows) + [""]))
  {
    var k := st.colCount;
    NoQuoteUnchanged("");
    assert Strip("") == "";
    CloseHeadStep(st, "");
    BodyRows(k, rows, "");
    RunConsKnown(st, "", rows + [""], TableState(false, true, k), [Separator(k)],
                 Step(TableState(false, false, k), CellRows(rows) + [""]));
  }

  /** The header row and the rule under it have the same number of pipes. */
  lemma HeaderPipes(header: String)
    requires '|' !in header
    ensures Count(" " + Cells(header), '|') == Count(Separator(Count(header, ',') + 1), '|')
  {
    ReplaceByCharCount(header, ',', '|');
    CountAbsent(header, '|');
    CountAppend(" ", Cells(header), '|');
  }

  lemma NoQuoteUnchanged(s: String)
    requires '"' !in s
    ensures RemoveChar(s, '"') == s
  {
    NoQuoteIdentity(s);
  }

  lemma {:induction false} NoQuoteIdentity(s: String)
    requires '"' !in s
    ensures ReplaceChar(s, '"', []) == s
  {
    if |s| > 0 {
      NoQuoteIdentity(s[1..]);
      assert [s[0]] + s[1..] == s;
    }
  }

  /** A header option indented by two spaces is sliced in the wrong place:
      the `:` and space that end `:header: ` stay in the emitted row. */
  lemma DoublyIndentedHeader(header: String)
    requires '"' !in header && NonBlank(header)
    ensures StepLine(TableState(true, false, 0), "  " + HeaderTag + header).out
         == [Cells(": " + header)]
  {
    var line := "  " + HeaderTag + header;
    DoublyIndentedLine(header);
    DoublyIndentedStepOn(header, Strip(line));
  }

  lemma DoublyIndentedLine(header: String)
    requires '"' !in header && NonBlank(header)
    ensures var line := "  " + HeaderTag + header;
            StepLine(TableState(true, false, 0), line) == StepOn(TableState(true, false, 0), line, Strip(line))
            && StartsWith(Strip(line), HeaderTag)
  {
    var core := HeaderTag + header;
    var line := "  " + HeaderTag + header;
    assert line == "  " + core;
    var i := NonBlankAt(header);
    var k := |HeaderTag| + i;
    assert core[0] == ':' && core[k] == header[i];
    StripIndentedKeeps("  ", core, k);
    assert Strip(line)[..|HeaderTag|] == core[..k + 1][..|HeaderTag|];
    assert '"' !in line;
    NoQuoteUnchanged(line);
    StepLineOn(TableState(true, false, 0), line, line, Strip(line));
  }

  lemma DoublyIndentedStepOn(header: String, stripped: String)
    requires StartsWith(stripped, HeaderTag)
    ensures StepOn(TableState(true, false, 0), "  " + HeaderTag + header, stripped).out
         == [Cells(": " + header)]
  {
    var line := "  " + HeaderTag + header;
    assert stripped[0] == ':' && stripped != CsvTable;
    assert Drop(line, |HeaderTag|) == ": " + header;
  }

  /** The final step of `get_go_formatted_doc`: strip the text and put `// `
      in front of each of its lines. */
  function CommentBlock(text: String): (r: String)
    ensures Split(r, '\n') == Prefixed(Split(Strip(text), '\n'))
  {
    var lines := Split(Strip(text), '\n');
    var r := "// " + Join(lines, "\n// ");
    PrefixedJoin(lines);
    assert forall i :: 0 <= i < |lines| ==> '\n' !in Prefixed(lines)[i] by {
      forall i | 0 <= i < |lines| ensures '\n' !in Prefixed(lines)[i] {
        assert '\n' !in "// ";
      }
    }
    SplitJoin(Prefixed(lines), '\n');
    r
  }

  /** Every line with `// ` in front. */
  function Prefixed(lines: seq<String>): (r: seq<String>)
    ensures |r| == |lines|
    ensures forall i :: 0 <= i < |lines| ==> r[i] == "// " + lines[i]
  {
    seq(|lines|, i requires 0 <= i < |lines| => "// " + lines[i])
  }

  lemma {:induction false} PrefixedJoin(lines: seq<String>)
    requires |lines| >= 1
    ensures "// " + Join(lines, "\n// ") == Join(Prefixed(lines), "\n")
  {
    if |lines| > 1 {
      PrefixedJoin(lines[1..]);
      assert Prefixed(lines)[1..] == Prefixed(lines[1..]);
    }
  }

  /** `get_go_formatted_doc`. The steps implemented by the shared framework
      are parameters: `rewriteLinks` (the regular-expression link rewrite),
      `specializeLinks` (function-link specialisation), `handleRst` (parameter,
      word and substitution markup) and `sinceFirmware` (the version note). */
  function FormattedDoc(text: String, rewriteLinks: String -> String,
                        specializeLinks: String -> String, handleRst: String -> String,
                        sinceFirmware: String): (r: String)
    ensures forall l :: l in Split(r, '\n') ==> StartsWith(l, "// ")
  {
    var t := Replace(text, ":ref:", "");
    var t := rewriteLinks(t);
    var t := RewriteTables(t);
    var t := specializeLinks(t);
    var t := Replace(t, ".. note::", "Note");
    var t := Replace(t, ".. warning::", "Warning");
    var t := handleRst(t) + sinceFirmware;
    var r := CommentBlock(t);
    assert forall l :: l in Split(r, '\n') ==> StartsWith(l, "// ") by {
      forall l | l in Split(r, '\n') ensures StartsWith(l, "// ") {
        var i :| 0 <= i < |Split(r, '\n')| && Split(r, '\n')[i] == l;
        assert l == "// " + Split(Strip(t), '\n')[i];
      }
    }
    r
  }
}

=== FILE: go_names.dfy ===
/** Go identifiers: reserved-word escaping for element names, result-type names
    for packets, and the device type and package names. */
module GoNames {
  import opened Outcome
  import opened Text
  import opened Ir

  /** The Go keywords an element name must not collide with. */
  const Keywords: seq<String> := [
    "break", "default", "func", "interface", "select", "case", "defer", "go", "map",
    "struct", "chan", "else", "goto", "package", "switch", "const", "fallthrough", "if",
    "range", "type", "continue", "for", "import", "return", "var"]

  predicate IsKeyword(s: String) {
    s in Keywords
  }

  lemma KeywordsEndInLetters()
    ensures forall k :: k in Keywords ==> |k| > 0 && k[|k| - 1] != '_'
  {
  }

  lemma EscapedIsNotKeyword(name: String)
    ensures !IsKeyword(name + "_")
  {
    KeywordsEndInLetters();
    assert (name + "_")[|name|] == '_';
  }

  /** `GoElement.get_go_name`: the headless name, with `_` appended to a keyword. */
  function ElementGoName(e: Element): (r: String)
    ensures !IsKeyword(r)
    ensures IsKeyword(e.name.headless) <==> r == e.name.headless + "_"
    ensures !IsKeyword(e.name.headless) <==> r == e.name.headless
  {
    var name := e.name.headless;
    EscapedIsNotKeyword(name);
    if name in Keywords then name + "_" else name
  }

  /** Reverses the escaping: a keyword followed by `_` loses the `_`. */
  function UnescapeGoName(r: String): String {
    if |r| > 0 && r[|r| - 1] == '_' && IsKeyword(r[..|r| - 1]) then r[..|r| - 1] else r
  }

  /** Escaping can be undone for every headless name that is not itself a keyword followed by `_`. */
  lemma EscapeRoundTrip(e: Element)
    requires !(|e.name.headless| > 0 && e.name.headless[|e.name.headless| - 1] == '_'
               && IsKeyword(e.name.headless[..|e.name.headless| - 1]))
    ensures UnescapeGoName(ElementGoName(e)) == e.name.headless
  {
    var h := e.name.headless;
    if IsKeyword(h) {
      assert (h + "_")[..|h|] == h;
    }
  }

  /** A keyword and the same keyword followed by `_` share one Go name. */
  lemma EscapeCollision(e: Element, f: Element)
    requires IsKeyword(e.name.headless) && f.name.headless == e.name.headless + "_"
    ensures ElementGoName(e) == ElementGoName(f)
  {
    KeywordsEndInLetters();
  }

  /** `GoPacket.get_go_type_name`: the camel-case name without its `Get`/`Is` verb,
      chosen by the underscore spelling. */
  function PacketTypeName(p: Packet): (r: String)
    ensures var k := if StartsWith(p.name.under, "get_") then 3
                     else if StartsWith(p.name.under, "is_") then 2 else 0;
            (k <= |p.name.camel| ==> p.name.camel == p.name.camel[..k] + r)
            && (k > |p.name.camel| ==> r == [])
  {
    var name := p.name.camel;
    if StartsWith(p.name.under, "get_") then Drop(name, 3)
    else if StartsWith(p.name.under, "is_") then Drop(name, 2)
    else name
  }

  /** With consistent spellings the verb disappears from the type name. */
  lemma TypeNameDropsVerb(p: Packet, rest: String, restCamel: String)
    ensures p.name.under == "get_" + rest && p.name.camel == "Get" + restCamel ==>
      PacketTypeName(p) == restCamel
    ensures p.name.under == "is_" + rest && p.name.camel == "Is" + restCamel ==>
      PacketTypeName(p) == restCamel
    ensures !StartsWith(p.name.under, "get_") && !StartsWith(p.name.under, "is_") ==>
      PacketTypeName(p) == p.name.camel
  {
    if p.name.under == "get_" + rest && p.name.camel == "Get" + restCamel {
      assert p.name.under[..4] == "get_";
      assert p.name.camel[..3] == "Get";
    }
    if p.name.under == "is_" + rest && p.name.camel == "Is" + restCamel {
      assert p.name.under[..3] == "is_";
      assert p.name.under[0] == 'i';
      assert p.name.camel[..2] == "Is";
    }
  }

  /** `GoDevice.get_go_name`: category first for the newer devices, name first otherwise. */
  function DeviceGoName(d: Device): (r: String)
    ensures d.isTng ==> StartsWith(r, d.category.camel) && EndsWith(r, d.name.camel)
    ensures !d.isTng ==> StartsWith(r, d.name.camel) && EndsWith(r, d.category.camel)
    ensures |r| == |d.name.camel| + |d.category.camel|
  {
    var r := if d.isTng then d.category.camel + d.name.camel else d.name.camel + d.category.camel;
    assert d.isTng ==> r[..|d.category.camel|] == d.category.camel;
    assert !d.isTng ==> r[..|d.name.camel|] == d.name.camel;
    r
  }

  /** `GoDevice.get_go_package`: the two underscore names joined by `_`, in the same order. */
  function DeviceGoPackage(d: Device): String {
    if d.isTng then d.category.under + "_" + d.name.under
    else d.name.under + "_" + d.category.under
  }

  /** Recovers the device part of a package name, knowing its category and naming order. */
  function NameFromPackage(pkg: String, categoryUnder: String, isTng: bool): Option<String> {
    var tag := |categoryUnder| + 1;
    if |pkg| < tag then None
    else if isTng then
      (if pkg[..tag] == categoryUnder + "_" then Some(pkg[tag..]) else None)
    else
      (if pkg[|pkg| - tag..] == "_" + categoryUnder then Some(pkg[..|pkg| - tag]) else None)
  }

  /** The package name determines the device name once the category is known. */
  lemma PackageRoundTrip(d: Device)
    ensures NameFromPackage(DeviceGoPackage(d), d.category.under, d.isTng) == Some(d.name.under)
  {
    var pkg := DeviceGoPackage(d);
    var tag := |d.category.under| + 1;
    if d.isTng {
      assert pkg[..tag] == d.category.under + "_";
      assert pkg[tag..] == d.name.under;
    } else {
      assert pkg[|pkg| - tag..] == "_" + d.category.under;
      assert pkg[..|pkg| - tag] == d.name.under;
    }
  }

  /** The link target a packet reference becomes in Go documentation: the
      registration function for callbacks, the method name for functions. */
  function LinkTarget(p: Packet, highLevel: bool): (r: String)
    ensures var name := if highLevel then p.linkName else p.name;
            && (p.kind == Function ==> r == name.camel)
            && (p.kind == Callback ==>
                  StartsWith(r, "Register") && EndsWith(r, "Callback")
                  && |r| >= 16 && r[8..|r| - 8] == name.camel)
  {
    var name := if highLevel then p.linkName else p.name;
    if p.kind == Callback then
      var r := "Register" + name.camel + "Callback";
      assert r[..8] == "Register";
      assert r[8..|r| - 8] == name.camel;
      r
    else name.camel
  }
}

=== FILE: go_signatures.dfy ===
/** Go method signatures of a packet: return lists, parameter lists, result
    type names and derivable traits. */
module GoSignatures {
  import opened Outcome
  import opened Text
  import opened Ir
  import opened GoTypes
  import opened GoNames

  /** `name type` for one element. */
  function Field(e: Element, ignoreConstantGroup: bool): String {
    ElementGoName(e) + " " + GoTypeOf(e, ignoreConstantGroup)
  }

  function Fields(es: seq<Element>, ignoreConstantGroup: bool): (r: seq<String>)
    ensures |r| == |es|
    ensures forall i :: 0 <= i < |es| ==> r[i] == Field(es[i], ignoreConstantGroup)
  {
    seq(|es|, i requires 0 <= i < |es| => Field(es[i], ignoreConstantGroup))
  }

  /** The output elements that appear in the return list: all of them, or in
      high-level mode only those that are not low-level. */
  function ReturnedElements(p: Packet, highLevel: bool): seq<Element> {
    var outs := OutElements(p.elements);
    if highLevel then NonLowElements(outs) else outs
  }

  /** The low-level output elements carrying the short-write count. */
  function WrittenElements(p: Packet): seq<Element> {
    LowElementsWithRole(OutElements(p.elements), StreamChunkWritten)
  }

  /** Whether the return list gets the stream's data slice in front. */
  predicate AddsStreamData(p: Packet, highLevel: bool) {
    highLevel && p.highLevel.Some? && p.highLevel.value.StreamOut?
  }

  /** Whether the return list gets the short-write count at its end. */
  predicate AddsWrittenCount(p: Packet, highLevel: bool) {
    highLevel && p.highLevel == Some(StreamIn(true))
  }

  /** The return-list entries before `err error`: the fields, with the
      stream's data slice in front or its short-write count at the end in
      high-level mode. */
  function StreamEntries(p: Packet, highLevel: bool, ignoreConstantGroup: bool): (r: Result<seq<String>>)
    ensures r.Err? <==> AddsWrittenCount(p, highLevel) && |WrittenElements(p)| == 0
    ensures r.Err? ==> r.fault == IndexOutOfRange
  {
    var fields := Fields(ReturnedElements(p, highLevel), ignoreConstantGroup);
    if highLevel && p.highLevel.Some? then
      match p.highLevel.value
      case StreamIn(hasShortWrite) =>
        var written := WrittenElements(p);
        if hasShortWrite then
          if |written| == 0 then Err(IndexOutOfRange)
          else Ok(fields + [ElementGoName(written[0]) + " uint64"])
        else Ok(fields)
      case StreamOut(data) =>
        Ok([ElementGoName(data) + " []" + ScalarGoType(data)] + fields)
    else Ok(fields)
  }

  /** Where each entry sits: the data slice first, then one field per
      returned element in order, then the short-write count. */
  lemma StreamEntriesLayout(p: Packet, highLevel: bool, ignoreConstantGroup: bool)
    ensures var r := StreamEntries(p, highLevel, ignoreConstantGroup);
            var returned := ReturnedElements(p, highLevel);
            var front := if AddsStreamData(p, highLevel) then 1 else 0;
            var back := if AddsWrittenCount(p, highLevel) then 1 else 0;
            r.Ok? ==>
              && |r.value| == front + |returned| + back
              && (forall i :: 0 <= i < |returned| ==>
                    r.value[front + i] == Field(returned[i], ignoreConstantGroup))
              && (front == 1 ==>
                    var d := p.highLevel.value.data;
                    r.value[0] == ElementGoName(d) + " []" + GoTypeName(d.baseType))
              && (back == 1 ==>
                    r.value[front + |returned|] == ElementGoName(WrittenElements(p)[0]) + " uint64")
  {
    var fields := Fields(ReturnedElements(p, highLevel), ignoreConstantGroup);
    if AddsStreamData(p, highLevel) {
      var d := p.highLevel.value.data;
      assert StreamEntries(p, highLevel, ignoreConstantGroup)
          == Ok([ElementGoName(d) + " []" + ScalarGoType(d)] + fields);
    } else if AddsWrittenCount(p, highLevel) && |WrittenElements(p)| > 0 {
      assert StreamEntries(p, highLevel, ignoreConstantGroup)
          == Ok(fields + [ElementGoName(WrittenElements(p)[0]) + " uint64"]);
    } else if !AddsWrittenCount(p, highLevel) {
      assert StreamEntries(p, highLevel, ignoreConstantGroup) == Ok(fields);
    }
  }

  /** The entries of `get_go_return_type`, before they are joined with `, `. */
  function ReturnEntries(p: Packet, highLevel: bool, ignoreConstantGroup: bool): (r: Result<seq<String>>)
    ensures r.Err? <==> AddsWrittenCount(p, highLevel) && |WrittenElements(p)| == 0
    ensures r.Err? ==> r.fault == IndexOutOfRange
    ensures r.Ok? ==>
      var entries := StreamEntries(p, highLevel, ignoreConstantGroup).value;
      && |r.value| == |entries| + (if p.kind == Function then 1 else 0)
      && r.value[..|entries|] == entries
      && (p.kind == Function ==> r.value[|r.value| - 1] == "err error")
  {
    match StreamEntries(p, highLevel, ignoreConstantGroup)
    case Err(f) => Err(f)
    case Ok(entries) =>
      if p.kind == Callback then Ok(entries)
      else
        var r := entries + ["err error"];
        assert r[..|entries|] == entries;
        Ok(r)
  }

  /** `GoPacket.get_go_return_type`. */
  function GoReturnType(p: Packet, highLevel: bool, ignoreConstantGroup: bool): (r: Result<String>)
    ensures r.Ok? <==> ReturnEntries(p, highLevel, ignoreConstantGroup).Ok?
    ensures r.Ok? ==> r.value == Join(ReturnEntries(p, highLevel, ignoreConstantGroup).value, ", ")
    ensures r.Err? ==> r.fault == IndexOutOfRange
    ensures r.Ok? && p.kind == Function ==> EndsWith(r.value, "err error")
  {
    match ReturnEntries(p, highLevel, ignoreConstantGroup)
    case Err(f) => Err(f)
    case Ok(entries) =>
      if p.kind == Function then JoinEndsWithLast(entries, ", "); Ok(Join(entries, ", "))
      else Ok(Join(entries, ", "))
  }

  lemma {:induction false} JoinEndsWithLast(parts: seq<String>, sep: String)
    requires |parts| >= 1
    ensures EndsWith(Join(parts, sep), parts[|parts| - 1])
  {
    if |parts| > 1 {
      JoinEndsWithLast(parts[1..], sep);
      var tail := Join(parts[1..], sep);
      var whole := parts[0] + sep + tail;
      var last := parts[|parts| - 1];
      assert whole[|whole| - |last|..] == tail[|tail| - |last|..];
    }
  }

  /** Outside high-level mode the stream descriptor is irrelevant: the return
      list is the output fields, plus `err error` for a function. */
  lemma LowLevelReturnIgnoresStream(p: Packet, ignoreConstantGroup: bool)
    ensures ReturnEntries(p, false, ignoreConstantGroup)
         == ReturnEntries(p.(highLevel := None), false, ignoreConstantGroup)
    ensures ReturnEntries(p, false, ignoreConstantGroup)
         == Ok(Fields(OutElements(p.elements), ignoreConstantGroup)
               + (if p.kind == Function then ["err error"] else []))
  {
    var fields := Fields(OutElements(p.elements), ignoreConstantGroup);
    assert fields + [] == fields;
  }

  /** A callback's return list is exactly its fields and stream entries; a
      function's has one entry more, `err error`, at the end. */
  lemma ErrorEntryOnlyForFunctions(q: Packet, highLevel: bool, ignoreConstantGroup: bool)
    requires q.kind == Callback
    ensures var callback := ReturnEntries(q, highLevel, ignoreConstantGroup);
            var asFunction := ReturnEntries(q.(kind := Function), highLevel, ignoreConstantGroup);
            && (asFunction.Ok? <==> callback.Ok?)
            && (callback.Ok? ==> asFunction.value == callback.value + ["err error"])
  {
  }

  /** The elements `get_go_parameters` lists: all of a callback's, only the
      inputs of a function, in the order of the packet. */
  function ParameterElements(p: Packet, highLevel: bool): (r: seq<Element>)
    ensures var source := if highLevel then p.highLevelElements else p.elements;
            && (p.kind == Callback ==> r == source)
            && (p.kind == Function ==> forall e :: e in r <==> e in source && e.direction == In)
  {
    var source := if highLevel then p.highLevelElements else p.elements;
    if p.kind == Function then InputsOf(source) else source
  }

  function InputsOf(es: seq<Element>): (r: seq<Element>)
    ensures |r| <= |es|
    ensures forall e :: e in r <==> e in es && e.direction == In
  {
    if |es| == 0 then []
    else (if es[0].direction == In then [es[0]] else []) + InputsOf(es[1..])
  }

  /** `InputsOf` keeps the order of the elements: the inputs of two runs of
      elements are those of the first run followed by those of the second. */
  lemma {:induction false} InputsOfAppend(a: seq<Element>, b: seq<Element>)
    ensures InputsOf(a + b) == InputsOf(a) + InputsOf(b)
  {
    if |a| == 0 {
      assert a + b == b;
    } else {
      assert (a + b)[1..] == a[1..] + b;
      InputsOfAppend(a[1..], b);
    }
  }

  /** A single element is kept exactly when it is an input. */
  lemma InputsOfSingle(e: Element)
    ensures InputsOf([e]) == (if e.direction == In then [e] else [])
  {
    assert [e][1..] == [];
  }

  /** `GoPacket.get_go_parameters`. */
  function GoParameters(p: Packet, highLevel: bool, ignoreConstantGroup: bool): (r: String)
    ensures r == "" <==> |ParameterElements(p, highLevel)| == 0
  {
    var fields := Fields(ParameterElements(p, highLevel), ignoreConstantGroup);
    JoinEmpty(fields, ", ");
    Join(fields, ", ")
  }

  /** A join of `name type` fields is empty only when there are none. */
  lemma JoinEmpty(fields: seq<String>, sep: String)
    requires forall i :: 0 <= i < |fields| ==> |fields[i]| > 0
    ensures Join(fields, sep) == "" <==> |fields| == 0
  {
    if |fields| > 1 {
      assert |fields[0] + sep + Join(fields[1..], sep)| >= |fields[0]|;
    }
  }

  /** The parameter list in order: the first element of the packet, when it
      is listed at all (every element of a callback, the inputs of a
      function), contributes its field ahead of the rest's list. */
  lemma ParametersCons(p: Packet, highLevel: bool, ignoreConstantGroup: bool, e: Element, rest: seq<Element>)
    ensures var whole := GoParameters(p.(elements := [e] + rest, highLevelElements := [e] + rest),
                                      highLevel, ignoreConstantGroup);
            var tail := GoParameters(p.(elements := rest, highLevelElements := rest),
                                     highLevel, ignoreConstantGroup);
            && (p.kind == Function && e.direction == Out ==> whole == tail)
            && (p.kind == Callback || e.direction == In ==>
                  whole == if tail == "" then Field(e, ignoreConstantGroup)
                           else Field(e, ignoreConstantGroup) + ", " + tail)
  {
    var q := p.(elements := [e] + rest, highLevelElements := [e] + rest);
    var q' := p.(elements := rest, highLevelElements := rest);
    var ps := ParameterElements(q', highLevel);
    ParameterElementsCons(p, highLevel, e, rest);
    if p.kind == Callback || e.direction == In {
      FieldsCons(e, ps, ignoreConstantGroup);
    } else {
      assert ParameterElements(q, highLevel) == ps;
    }
  }

  /** The elements listed for a packet whose elements are `e` then `rest`. */
  lemma ParameterElementsCons(p: Packet, highLevel: bool, e: Element, rest: seq<Element>)
    ensures ParameterElements(p.(elements := [e] + rest, highLevelElements := [e] + rest), highLevel)
         == (if p.kind == Callback || e.direction == In then [e] else [])
            + ParameterElements(p.(elements := rest, highLevelElements := rest), highLevel)
  {
    if p.kind == Function {
      InputsOfAppend([e], rest);
      InputsOfSingle(e);
    }
  }

  /** The joined fields of `e` followed by `es`. */
  lemma FieldsCons(e: Element, es: seq<Element>, ignoreConstantGroup: bool)
    ensures var tail := Join(Fields(es, ignoreConstantGroup), ", ");
            Join(Fields([e] + es, ignoreConstantGroup), ", ")
              == if |es| == 0 then Field(e, ignoreConstantGroup)
                 else Field(e, ignoreConstantGroup) + ", " + tail
  {
    var fs := Fields(es, ignoreConstantGroup);
    assert Fields([e] + es, ignoreConstantGroup) == [Field(e, ignoreConstantGroup)] + fs;
    assert ([Field(e, ignoreConstantGroup)] + fs)[1..] == fs;
  }

  /** A function's elements split into its parameters and its results. */
  lemma {:induction false} ParametersAndResultsPartition(es: seq<Element>)
    ensures |InputsOf(es)| + |OutElements(es)| == |es|
  {
    if |es| > 0 {
      ParametersAndResultsPartition(es[1..]);
    }
  }

  /** `GoPacket.get_return_type`: `()` without results, the single result's own
      type for a plain packet, the packet's result-type name otherwise. */
  function ReturnType(p: Packet): (r: String)
    ensures var outs := OutElements(p.elements);
            && (|outs| == 0 ==> r == "()")
            && (|outs| == 1 && p.highLevel.None? ==> r == DefaultGoType(outs[0]))
            && ((|outs| == 1 && p.highLevel.Some?) || |outs| > 1 ==> r == PacketTypeName(p))
  {
    var outs := OutElements(p.elements);
    if |outs| == 0 then "()"
    else if |outs| == 1 then
      if p.highLevel.Some? then PacketTypeName(p) else DefaultGoType(outs[0])
    else PacketTypeName(p)
  }

  /** `GoPacket.get_stream_info_return_type`: the same choice over the
      low-level output elements only. */
  function StreamInfoReturnType(p: Packet): (r: String)
    ensures var lows := LowElements(OutElements(p.elements));
            && (|lows| == 0 ==> r == "()")
            && (|lows| == 1 ==> r == DefaultGoType(lows[0]))
            && (|lows| > 1 ==> r == PacketTypeName(p))
  {
    var lows := LowElements(OutElements(p.elements));
    if |lows| == 0 then "()"
    else if |lows| == 1 then DefaultGoType(lows[0])
    else PacketTypeName(p)
  }

  lemma {:induction false} AllLow(es: seq<Element>)
    requires forall e :: e in es ==> e.level == Low
    ensures LowElements(es) == es
  {
    if |es| > 0 {
      AllLow(es[1..]);
      assert [es[0]] + es[1..] == es;
    }
  }

  /** A packet without a stream descriptor whose outputs are all low-level
      gets the same result type from both renderers. */
  lemma StreamInfoAgreesWithReturnType(p: Packet)
    requires p.highLevel.None?
    requires forall e :: e in p.elements && e.direction == Out ==> e.level == Low
    ensures StreamInfoReturnType(p) == ReturnType(p)
  {
    AllLow(OutElements(p.elements));
  }

  /** `GoPacket.get_high_level_payload_type`: the scalar type of the first
      low-level chunk-data output. */
  function HighLevelPayloadType(p: Packet): (r: Result<String>)
    ensures var chunks := LowElementsWithRole(OutElements(p.elements), StreamChunkData);
            && (r.Err? <==> |chunks| == 0)
            && (r.Ok? && chunks[0].constantGroup.None? ==>
                  r.value == GoTypeName(chunks[0].baseType))
            && (r.Ok? && chunks[0].constantGroup.Some? ==>
                  r.value == chunks[0].constantGroup.value.name.camel)
  {
    var chunks := LowElementsWithRole(OutElements(p.elements), StreamChunkData);
    if |chunks| == 0 then Err(IndexOutOfRange)
    else
      ScalarTypeText(chunks[0]);
      Ok(ElementGoType(chunks[0], true, false, Context.Default, None).value)
  }

  /** The traits `get_go_derivable_traits` can list, in their canonical order. */
  datatype Trait = Clone | Copy | Debug | Default | PartialEq | Eq | Hash

  function TraitName(t: Trait): String {
    match t
    case Clone => "Clone"
    case Copy => "Copy"
    case Debug => "Debug"
    case Default => "Default"
    case PartialEq => "PartialEq"
    case Eq => "Eq"
    case Hash => "Hash"
  }

  /** Different traits have different names. */
  lemma TraitNameInjective(a: Trait, b: Trait)
    ensures TraitName(a) == TraitName(b) ==> a == b
  {
    if TraitName(a) == TraitName(b) {
      assert TraitName(a)[0] == TraitName(b)[0];
      assert |TraitName(a)| == |TraitName(b)|;
    }
  }

  /** Position of a trait in the canonical order. */
  function TraitRank(t: Trait): nat {
    match t
    case Clone => 0
    case Copy => 1
    case Debug => 2
    case Default => 3
    case PartialEq => 4
    case Eq => 5
    case Hash => 6
  }

  predicate NoStringTypes(es: seq<Element>) {
    forall x :: x in es ==> !Contains(DefaultGoType(x), "String")
  }

  predicate SmallArrays(es: seq<Element>) {
    forall x :: x in es ==> x.cardinality <= 32
  }

  predicate NoFloatTypes(es: seq<Element>) {
    forall x :: x in es ==> 'f' !in DefaultGoType(x)
  }

  /** The results `get_go_derivable_traits` inspects. */
  function ResultElements(p: Packet, highLevelOnly: bool): seq<Element> {
    if highLevelOnly then NonLowElements(OutElements(p.elements)) else OutElements(p.elements)
  }

  /** The trait list for the three conditions `get_go_derivable_traits` tests,
      built the way the source appends to it. */
  function TraitList(copy: bool, small: bool, exact: bool): seq<Trait> {
    var result := [Clone] + (if copy then [Copy] else []);
    if small then
      result + [Debug, Trait.Default, PartialEq] + (if exact then [Eq, Hash] else [])
    else result
  }

  /** Whether a trait belongs in the list under the three conditions. */
  predicate Wanted(t: Trait, copy: bool, small: bool, exact: bool) {
    match t
    case Clone => true
    case Copy => copy
    case Debug => small
    case Default => small
    case PartialEq => small
    case Eq => small && exact
    case Hash => small && exact
  }

  /** Every trait, in rank order. */
  const AllTraits: seq<Trait> := [Clone, Copy, Debug, Trait.Default, PartialEq, Eq, Hash]

  predicate Ranked(ts: seq<Trait>) {
    forall i, j :: 0 <= i < j < |ts| ==> TraitRank(ts[i]) < TraitRank(ts[j])
  }

  /** The wanted traits of `ts`, in their order: the reference definition of
      the trait list. */
  function Select(ts: seq<Trait>, copy: bool, small: bool, exact: bool): seq<Trait> {
    if |ts| == 0 then []
    else (if Wanted(ts[0], copy, small, exact) then [ts[0]] else []) + Select(ts[1..], copy, small, exact)
  }

  /** Selection keeps exactly the wanted members. */
  lemma {:induction false} SelectMembers(ts: seq<Trait>, copy: bool, small: bool, exact: bool)
    ensures forall t :: t in Select(ts, copy, small, exact) <==> t in ts && Wanted(t, copy, small, exact)
  {
    if |ts| > 0 {
      SelectMembers(ts[1..], copy, small, exact);
      assert forall t :: t in ts <==> t == ts[0] || t in ts[1..];
    }
  }

  /** Selection keeps the order of what it keeps. */
  lemma {:induction false} SelectRanked(ts: seq<Trait>, copy: bool, small: bool, exact: bool)
    requires Ranked(ts)
    ensures Ranked(Select(ts, copy, small, exact))
  {
    if |ts| > 0 {
      var rest := Select(ts[1..], copy, small, exact);
      assert Ranked(ts[1..]);
      SelectRanked(ts[1..], copy, small, exact);
      SelectMembers(ts[1..], copy, small, exact);
      if Wanted(ts[0], copy, small, exact) {
        forall t | t in rest
          ensures TraitRank(ts[0]) < TraitRank(t)
        {
          var j :| 0 <= j < |ts[1..]| && ts[1..][j] == t;
          assert ts[j + 1] == t;
        }
        RankedCons(ts[0], rest);
      } else {
        assert Select(ts, copy, small, exact) == rest;
      }
    }
  }

  lemma RankedCons(t: Trait, rest: seq<Trait>)
    requires Ranked(rest)
    requires forall u :: u in rest ==> TraitRank(t) < TraitRank(u)
    ensures Ranked([t] + rest)
  {
    var ts := [t] + rest;
    forall i, j | 0 <= i < j < |ts|
      ensures TraitRank(ts[i]) < TraitRank(ts[j])
    {
      assert ts[j] == rest[j - 1];
      if i > 0 {
        assert ts[i] == rest[i - 1];
      }
    }
  }

  /** The appended list is the selection from the rank order. */
  lemma TraitListSelects(copy: bool, small: bool, exact: bool)
    ensures TraitList(copy, small, exact) == Select(AllTraits, copy, small, exact)
  {
    var t2 := [Debug, Trait.Default, PartialEq, Eq, Hash];
    var t1 := [Copy] + t2;
    assert AllTraits == [Clone] + t1;
    SelectCons(Clone, t1, copy, small, exact);
    SelectCons(Copy, t2, copy, small, exact);
    SelectComparisons(copy, small, exact);
    var head := [Clone] + (if copy then [Copy] else []);
    var tail := if small then [Debug, Trait.Default, PartialEq] + (if exact then [Eq, Hash] else []) else [];
    assert [Clone] + ((if copy then [Copy] else []) + tail) == head + tail;
    if small {
      assert TraitList(copy, small, exact) == head + tail;
    }
  }

  /** The comparison traits are selected together, `Eq` and `Hash` only when exact. */
  lemma SelectComparisons(copy: bool, small: bool, exact: bool)
    ensures Select([Debug, Trait.Default, PartialEq, Eq, Hash], copy, small, exact)
      == if small then [Debug, Trait.Default, PartialEq] + (if exact then [Eq, Hash] else []) else []
  {
    var t6 := [Hash];
    var t5 := [Eq] + t6;
    var t4 := [PartialEq] + t5;
    var t3 := [Trait.Default] + t4;
    assert [Debug, Trait.Default, PartialEq, Eq, Hash] == [Debug] + t3;
    SelectCons(Hash, [], copy, small, exact);
    SelectCons(Eq, t6, copy, small, exact);
    SelectCons(PartialEq, t5, copy, small, exact);
    SelectCons(Trait.Default, t4, copy, small, exact);
    SelectCons(Debug, t3, copy, small, exact);
    if small && exact {
      assert Select(t5, copy, small, exact) == [Eq, Hash];
    } else {
      assert Select(t5, copy, small, exact) == [];
    }
  }

  lemma SelectCons(t: Trait, ts: seq<Trait>, copy: bool, small: bool, exact: bool)
    ensures Select([t] + ts, copy, small, exact)
      == (if Wanted(t, copy, small, exact) then [t] else []) + Select(ts, copy, small, exact)
  {
    assert ([t] + ts)[1..] == ts;
  }

  /** Which traits the list holds, and that they come in rank order. */
  lemma TraitListContents(copy: bool, small: bool, exact: bool)
    ensures var r := TraitList(copy, small, exact);
            && Clone in r
            && (Copy in r <==> copy)
            && (Debug in r <==> small) && (Trait.Default in r <==> small) && (PartialEq in r <==> small)
            && (Eq in r <==> small && exact) && (Hash in r <==> small && exact)
            && Ranked(r)
  {
    TraitListWanted(copy, small, exact);
    assert Wanted(Clone, copy, small, exact) && Wanted(Copy, copy, small, exact) == copy;
    assert Wanted(Debug, copy, small, exact) == small && Wanted(Trait.Default, copy, small, exact) == small;
    assert Wanted(PartialEq, copy, small, exact) == small;
    assert Wanted(Eq, copy, small, exact) == Wanted(Hash, copy, small, exact) == (small && exact);
  }

  /** The list holds exactly the wanted traits, in rank order. */
  lemma TraitListWanted(copy: bool, small: bool, exact: bool)
    ensures forall t :: t in TraitList(copy, small, exact) <==> Wanted(t, copy, small, exact)
    ensures Ranked(TraitList(copy, small, exact))
  {
    TraitListSelects(copy, small, exact);
    SelectEvery(AllTraits, copy, small, exact);
  }

  /** Selecting from every trait in rank order keeps exactly the wanted ones, ranked. */
  lemma SelectEvery(ts: seq<Trait>, copy: bool, small: bool, exact: bool)
    requires ts == AllTraits
    ensures forall t :: t in Select(ts, copy, small, exact) <==> Wanted(t, copy, small, exact)
    ensures Ranked(Select(ts, copy, small, exact))
  {
    AllTraitsRanked();
    EveryTraitListed();
    SelectMembers(ts, copy, small, exact);
    SelectRanked(ts, copy, small, exact);
  }

  lemma AllTraitsRanked()
    ensures Ranked(AllTraits)
  {
  }

  lemma EveryTraitListed()
    ensures forall t :: t in AllTraits
  {
    forall t: Trait ensures t in AllTraits {
      match t
      case Clone => assert AllTraits[0] == t;
      case Copy => assert AllTraits[1] == t;
      case Debug => assert AllTraits[2] == t;
      case Default => assert AllTraits[3] == t;
      case PartialEq => assert AllTraits[4] == t;
      case Eq => assert AllTraits[5] == t;
      case Hash => assert AllTraits[6] == t;
    }
  }

  /** `GoPacket.get_go_derivable_traits`: `Clone` always; `Copy` unless a result
      type mentions `String`; the comparison traits when no result is an array
      of more than 32 entries, and `Eq`/`Hash` only when no result type has an `f`. */
  function DerivableTraits(p: Packet, highLevelOnly: bool): (r: seq<Trait>)
    ensures var es := ResultElements(p, highLevelOnly);
            && Clone in r
            && (Copy in r <==> NoStringTypes(es))
            && (Eq in r <==> SmallArrays(es) && NoFloatTypes(es))
            && (Debug in r <==> SmallArrays(es)) && (Trait.Default in r <==> SmallArrays(es))
            && (PartialEq in r <==> SmallArrays(es))
            && (Hash in r <==> Eq in r)
    ensures Ranked(r)
  {
    var es := ResultElements(p, highLevelOnly);
    TraitListContents(NoStringTypes(es), SmallArrays(es), NoFloatTypes(es));
    TraitList(NoStringTypes(es), SmallArrays(es), NoFloatTypes(es))
  }

  /** `GoPacket.get_go_derivable_traits` as it returns them: the names of the
      derivable traits, in their order. */
  function DerivableTraitNames(p: Packet, highLevelOnly: bool): (r: seq<String>)
    ensures |r| == |DerivableTraits(p, highLevelOnly)|
    ensures forall i :: 0 <= i < |r| ==> r[i] == TraitName(DerivableTraits(p, highLevelOnly)[i])
  {
    var ts := DerivableTraits(p, highLevelOnly);
    seq(|ts|, i requires 0 <= i < |ts| => TraitName(ts[i]))
  }

  /** A trait's name is listed exactly when the trait is derivable. */
  lemma TraitNamesListed(p: Packet, highLevelOnly: bool, t: Trait)
    ensures TraitName(t) in DerivableTraitNames(p, highLevelOnly) <==> t in DerivableTraits(p, highLevelOnly)
  {
    var ts := DerivableTraits(p, highLevelOnly);
    var names := DerivableTraitNames(p, highLevelOnly);
    if TraitName(t) in names {
      var i :| 0 <= i < |names| && names[i] == TraitName(t);
      TraitNameInjective(t, ts[i]);
    }
    if t in ts {
      var i :| 0 <= i < |ts| && ts[i] == t;
      assert names[i] == TraitName(t);
    }
  }

  lemma {:induction false} ContainsHead(s: String, sub: String)
    requires |sub| > 0 && Contains(s, sub)
    ensures sub[0] in s
    decreases |s|
  {
    if StartsWith(s, sub) {
      assert s[0] == sub[0];
    } else {
      ContainsHead(s[1..], sub);
    }
  }

  /** Without a constant group an element's Go type is built from lower-case
      names, brackets and digits, and contains `f` exactly for floats. */
  lemma NameLetters(t: BaseType)
    ensures 'S' !in GoTypeName(t)
    ensures 'f' in GoTypeName(t) <==> t == Float
  {
    match t
    case Int8 => case UInt8 => case Int16 => case UInt16 =>
    case Int32 => case UInt32 => case Int64 => case UInt64 =>
    case Float => assert GoTypeName(t)[0] == 'f';
    case Bool => case Char => case Str =>
  }

  lemma PlainTypeLetters(e: Element)
    requires e.constantGroup.None?
    ensures 'S' !in DefaultGoType(e)
    ensures 'f' in DefaultGoType(e) <==> e.baseType == Float
  {
    var s := DefaultGoType(e);
    var name := GoTypeName(e.baseType);
    var c := e.cardinality;
    DefaultGoTypeText(e);
    NameLetters(e.baseType);
    IntToStringChars(c);
    if e.baseType == Str {
      assert s == "string";
    } else if c > 1 {
      assert s == "[" + IntToString(c) + "]" + name;
      BracketLetters("[" + IntToString(c) + "]", name);
    } else if c < 0 {
      assert s == "[]" + name;
      BracketLetters("[]", name);
    } else {
      assert s == name;
    }
  }

  /** An array or slice prefix of brackets, digits and a sign adds neither `S` nor `f`. */
  lemma BracketLetters(prefix: String, name: String)
    requires 'S' !in prefix && 'f' !in prefix
    ensures 'S' in prefix + name <==> 'S' in name
    ensures 'f' in prefix + name <==> 'f' in name
  {
  }

  /** For results without constant groups the trait list follows from the data
      alone: `Copy` always, the comparison traits for arrays of at most 32
      entries, `Eq` and `Hash` only without floats. */
  lemma TraitsOfPlainResults(p: Packet)
    requires forall e :: e in p.elements ==> e.constantGroup.None?
    ensures var outs := OutElements(p.elements);
            && Copy in DerivableTraits(p, false)
            && (Eq in DerivableTraits(p, false) <==>
                  forall e :: e in outs ==> e.cardinality <= 32 && e.baseType != Float)
  {
    var outs := OutElements(p.elements);
    forall e | e in outs
      ensures !Contains(DefaultGoType(e), "String")
      ensures 'f' in DefaultGoType(e) <==> e.baseType == Float
    {
      PlainTypeLetters(e);
      if Contains(DefaultGoType(e), "String") {
        ContainsHead(DefaultGoType(e), "String");
      }
    }
  }
}

=== FILE: go_types.dfy ===
/** Go type rendering: the base-type tables, the module-level renderer and the
    element renderer, given meaning through a small Go type-expression syntax. */
module GoTypes {
  import opened Outcome
  import opened Text
  import opened Ir

  /** A Go type expression: a named type, a fixed array `[n]T` or a slice `[]T`. */
  datatype GoType = Named(name: String) | ArrayOf(length: int, elem: GoType) | SliceOf(elem: GoType)

  /** A type name that cannot be mistaken for the start of an array or slice. */
  predicate WellFormed(g: GoType) {
    match g
    case Named(n) => |n| > 0 && n[0] != '['
    case ArrayOf(_, e) => WellFormed(e)
    case SliceOf(e) => WellFormed(e)
  }

  function Render(g: GoType): String {
    match g
    case Named(n) => n
    case ArrayOf(n, e) => "[" + IntToString(n) + "]" + Render(e)
    case SliceOf(e) => "[]" + Render(e)
  }

  /** Position of the first occurrence of `c`. */
  function IndexOf(s: String, c: char): (r: Option<nat>)
    ensures r.None? ==> c !in s
    ensures r.Some? ==> r.value < |s| && s[r.value] == c
    ensures r.Some? ==> forall i :: 0 <= i < r.value ==> s[i] != c
  {
    if |s| == 0 then None
    else if s[0] == c then Some(0)
    else match IndexOf(s[1..], c)
      case None => None
      case Some(k) => Some(k + 1)
  }

  /** Reads a Go type expression back from its text. */
  function Parse(s: String): Option<GoType>
    decreases |s|
  {
    if |s| == 0 then None
    else if s[0] != '[' then Some(Named(s))
    else if |s| >= 2 && s[1] == ']' then
      match Parse(s[2..])
      case None => None
      case Some(e) => Some(SliceOf(e))
    else
      match IndexOf(s, ']')
      case None => None
      case Some(k) =>
        if k < 1 then None
        else match ParseInt(s[1..k])
          case None => None
          case Some(n) =>
            match Parse(s[k + 1..])
            case None => None
            case Some(e) => Some(ArrayOf(n, e))
  }

  lemma FirstIndex(a: String, c: char, b: String)
    requires c !in a
    ensures IndexOf(a + [c] + b, c) == Some(|a|)
  {
    var s := a + [c] + b;
    assert s[|a|] == c;
    var k := IndexOf(s, c).value;
    assert forall i :: 0 <= i < |a| ==> s[i] == a[i];
  }

  /** Rendering a well-formed Go type and reading it back gives the same type. */
  lemma {:induction false} ParseRender(g: GoType)
    requires WellFormed(g)
    ensures Parse(Render(g)) == Some(g)
  {
    match g
    case Named(n) =>
    case SliceOf(e) =>
      ParseRender(e);
      assert Render(g)[2..] == Render(e);
    case ArrayOf(n, e) =>
      ParseRender(e);
      IntToStringChars(n);
      IntRoundTrip(n);
      ParseArrayText(IntToString(n), Render(e));
  }

  /** An array prefix `[d]` reads as the number `d` in front of the element type. */
  lemma ParseArrayText(d: String, rest: String)
    requires |d| >= 1 && ']' !in d && d[0] != ']'
    ensures Parse("[" + d + "]" + rest) ==
      match ParseInt(d)
      case None => None
      case Some(n) =>
        match Parse(rest)
        case None => None
        case Some(e) => Some(ArrayOf(n, e))
  {
    var s := "[" + d + "]" + rest;
    assert s == ("[" + d) + "]" + rest;
    FirstIndex("[" + d, ']', rest);
    assert s[1] == d[0];
    assert s[1..|d| + 1] == d;
    assert s[|d| + 2..] == rest;
  }

  /** `go_types`: the Go name of each base type. */
  function GoTypeName(t: BaseType): String {
    match t
    case Int8 => "int8"
    case UInt8 => "uint8"
    case Int16 => "int16"
    case UInt16 => "uint16"
    case Int32 => "int32"
    case UInt32 => "uint32"
    case Int64 => "int64"
    case UInt64 => "uint64"
    case Float => "float32"
    case Bool => "bool"
    case Char => "rune"
    case Str => "string"
  }

  /** Distinct base types get distinct Go names, and each Go name is a plain named type. */
  lemma GoTypeNameInjective(t: BaseType, u: BaseType)
    ensures WellFormed(Named(GoTypeName(t)))
    ensures GoTypeName(t) == GoTypeName(u) ==> t == u
  {
  }

  /** The wire width that `go_sizes` records for a Go type. */
  datatype Size = Bits(n: nat) | StringSize

  /** `get_go_type_size`: look a Go type name up in `go_sizes`; a missing key is `None`. */
  function GoTypeSize(goName: String): (r: Option<Size>)
    ensures r.Some? <==> exists t :: GoTypeName(t) == goName
  {
    assert GoTypeName(Int8) == "int8" && GoTypeName(UInt8) == "uint8";
    assert GoTypeName(Int16) == "int16" && GoTypeName(UInt16) == "uint16";
    assert GoTypeName(Int32) == "int32" && GoTypeName(UInt32) == "uint32";
    assert GoTypeName(Int64) == "int64" && GoTypeName(UInt64) == "uint64";
    assert GoTypeName(Float) == "float32" && GoTypeName(Bool) == "bool";
    assert GoTypeName(Char) == "rune" && GoTypeName(Str) == "string";
    if goName == "int8" || goName == "uint8" then Some(Bits(8))
    else if goName == "int16" || goName == "uint16" then Some(Bits(16))
    else if goName == "int32" || goName == "uint32" then Some(Bits(32))
    else if goName == "int64" || goName == "uint64" then Some(Bits(64))
    else if goName == "float32" then Some(Bits(32))
    else if goName == "bool" then Some(Bits(1))
    else if goName == "rune" then Some(Bits(8))
    else if goName == "string" then Some(StringSize)
    else None
  }

  /** The two tables agree: every numeric Go name carries its width as its
      suffix, `rune` is one byte, `bool` one bit and only `string` has no width. */
  lemma SizesAgreeWithNames(t: BaseType)
    ensures GoTypeSize(GoTypeName(t)) == Some(Width(t))
    ensures Width(t) == StringSize <==> t == Str
    ensures t !in {Bool, Char, Str} ==>
      Width(t).Bits? && EndsWith(GoTypeName(t), NatToString(Width(t).n))
    ensures t == Bool ==> Width(t) == Bits(1)
    ensures t == Char ==> Width(t) == Bits(8)
  {
    SizeByType(t);
    if t !in {Bool, Char, Str} {
      WidthSuffix(t);
    }
  }

  lemma WidthSuffix(t: BaseType)
    requires t !in {Bool, Char, Str}
    ensures Width(t).Bits? && EndsWith(GoTypeName(t), NatToString(Width(t).n))
  {
    WidthDigits();
    var name := GoTypeName(t);
    match t
    case Int8 => assert name[|name| - 1..] == "8";
    case UInt8 => assert name[|name| - 1..] == "8";
    case Int16 => assert name[|name| - 2..] == "16";
    case UInt16 => assert name[|name| - 2..] == "16";
    case Int32 => assert name[|name| - 2..] == "32";
    case UInt32 => assert name[|name| - 2..] == "32";
    case Int64 => assert name[|name| - 2..] == "64";
    case UInt64 => assert name[|name| - 2..] == "64";
    case Float => assert name[|name| - 2..] == "32";
  }

  /** The width `go_sizes` gives each base type's Go name. */
  function Width(t: BaseType): Size {
    match t
    case Int8 => Bits(8)
    case UInt8 => Bits(8)
    case Int16 => Bits(16)
    case UInt16 => Bits(16)
    case Int32 => Bits(32)
    case UInt32 => Bits(32)
    case Int64 => Bits(64)
    case UInt64 => Bits(64)
    case Float => Bits(32)
    case Bool => Bits(1)
    case Char => Bits(8)
    case Str => StringSize
  }

  lemma SizeByType(t: BaseType)
    ensures GoTypeSize(GoTypeName(t)) == Some(Width(t))
  {
    match t
    case Int8 => assert GoTypeSize("int8") == Some(Bits(8));
    case UInt8 => assert GoTypeSize("uint8") == Some(Bits(8));
    case Int16 => assert GoTypeSize("int16") == Some(Bits(16));
    case UInt16 => assert GoTypeSize("uint16") == Some(Bits(16));
    case Int32 => assert GoTypeSize("int32") == Some(Bits(32));
    case UInt32 => assert GoTypeSize("uint32") == Some(Bits(32));
    case Int64 => assert GoTypeSize("int64") == Some(Bits(64));
    case UInt64 => assert GoTypeSize("uint64") == Some(Bits(64));
    case Float => assert GoTypeSize("float32") == Some(Bits(32));
    case Bool => assert GoTypeSize("bool") == Some(Bits(1));
    case Char => assert GoTypeSize("rune") == Some(Bits(8));
    case Str => assert GoTypeSize("string") == Some(StringSize);
  }

  lemma WidthDigits()
    ensures NatToString(8) == "8" && NatToString(16) == "16"
    ensures NatToString(32) == "32" && NatToString(64) == "64"
  {
    assert NatToString(16) == NatToString(1) + [DigitChar(6)];
    assert NatToString(32) == NatToString(3) + [DigitChar(2)];
    assert NatToString(64) == NatToString(6) + [DigitChar(4)];
  }

  /** The module-level `get_go_type(type_, cardinality, array)`, with `fixed` for `array`:
      the scalar for strings and single values, else a fixed array or a slice of it. */
  function ModuleGoType(t: BaseType, cardinality: int, fixed: bool): (r: String)
    ensures cardinality == 1 || t == Str ==> r == Render(Named(GoTypeName(t)))
    ensures cardinality != 1 && t != Str && fixed ==>
      r == Render(ArrayOf(cardinality, Named(GoTypeName(t))))
    ensures cardinality != 1 && t != Str && !fixed ==>
      r == Render(SliceOf(Named(GoTypeName(t))))
  {
    var goType := GoTypeName(t);
    if fixed && cardinality != 1 && t != Str then "[" + IntToString(cardinality) + "]" + goType
    else if cardinality != 1 && t != Str then "[]" + goType
    else goType
  }

  /** The module-level rendering reads back as the Go type it denotes. */
  lemma ModuleGoTypeReadsBack(t: BaseType, cardinality: int, fixed: bool)
    ensures cardinality == 1 || t == Str ==>
      Parse(ModuleGoType(t, cardinality, fixed)) == Some(Named(GoTypeName(t)))
    ensures cardinality != 1 && t != Str && fixed ==>
      Parse(ModuleGoType(t, cardinality, fixed)) == Some(ArrayOf(cardinality, Named(GoTypeName(t))))
    ensures cardinality != 1 && t != Str && !fixed ==>
      Parse(ModuleGoType(t, cardinality, fixed)) == Some(SliceOf(Named(GoTypeName(t))))
  {
    var scalar := Named(GoTypeName(t));
    GoTypeNameInjective(t, t);
    if cardinality == 1 || t == Str {
      ParseRender(scalar);
    } else if fixed {
      ParseRender(ArrayOf(cardinality, scalar));
    } else {
      ParseRender(SliceOf(scalar));
    }
  }

  /** `GoConstantGroup.get_go_type`: a constant group renders as its scalar base type. */
  function ConstantGroupGoType(g: ConstantGroup): (r: String)
    ensures Parse(r) == Some(Named(GoTypeName(g.baseType)))
  {
    ModuleGoTypeReadsBack(g.baseType, 1, false);
    ModuleGoType(g.baseType, 1, false)
  }

  /** The `context` argument of the element renderer. */
  datatype Context = Default | Meta

  /** `GoElement.get_go_type`. The `cardinality` argument overrides the element's
      own and must be positive. */
  function ElementGoType(e: Element, ignoreCardinality: bool, ignoreConstantGroup: bool,
                         context: Context, cardinality: Option<int>): (r: Result<String>)
    ensures r.Err? <==> cardinality.Some? && cardinality.value <= 0
    ensures r.Ok? && !ignoreConstantGroup && e.constantGroup.Some? ==>
      r.value == e.constantGroup.value.name.camel
    ensures r.Ok? && (ignoreConstantGroup || e.constantGroup.None?) ==>
      var c := if cardinality.Some? then cardinality.value else e.cardinality;
      var scalar := Named(GoTypeName(e.baseType));
      && (e.baseType == Str ==> r.value == Render(Named("string")))
      && (e.baseType != Str && (ignoreCardinality || c == 0 || c == 1) ==>
            r.value == Render(scalar))
      && (e.baseType != Str && !ignoreCardinality && c > 1 ==>
            if context == Meta && e.role == Some(StreamData)
            then r.value == Render(SliceOf(scalar))
            else r.value == Render(ArrayOf(c, scalar)))
      && (e.baseType != Str && !ignoreCardinality && c < 0 ==>
            r.value == Render(SliceOf(scalar)))
  {
    if cardinality.Some? && cardinality.value <= 0 then Err(AssertionFailed)
    else
      var c := if cardinality.Some? then cardinality.value else e.cardinality;
      if !ignoreConstantGroup && e.constantGroup.Some? then Ok(e.constantGroup.value.name.camel)
      else if e.baseType == Str then Ok("string")
      else
        var elementType :=
          if e.baseType == Char then "rune"
          else if e.baseType == Bool then "bool"
          else if e.baseType == Float then "float32"
          else Token(e.baseType);
        assert elementType == GoTypeName(e.baseType);
        if c > 1 && !ignoreCardinality then
          if context == Meta && e.role == Some(StreamData) then Ok("[]" + elementType)
          else Ok("[" + IntToString(c) + "]" + elementType)
        else if c < 0 && !ignoreCardinality then Ok("[]" + elementType)
        else
          Ok(elementType)
  }

  /** `element.get_go_type()` with every argument at its default. */
  function DefaultGoType(e: Element): (r: String)
    ensures ElementGoType(e, false, false, Default, None) == Ok(r)
  {
    ElementGoType(e, false, false, Default, None).value
  }

  /** `element.get_go_type(ignore_constant_group=...)`, never failing. */
  function GoTypeOf(e: Element, ignoreConstantGroup: bool): (r: String)
    ensures ElementGoType(e, false, ignoreConstantGroup, Default, None) == Ok(r)
  {
    ElementGoType(e, false, ignoreConstantGroup, Default, None).value
  }

  /** The scalar Go type of an element, cardinality and constant group ignored. */
  function ScalarGoType(e: Element): (r: String)
    ensures r == GoTypeName(e.baseType)
  {
    ElementGoType(e, true, true, Default, None).value
  }

  /** With cardinality ignored, an element renders as its constant group or its scalar type. */
  lemma ScalarTypeText(e: Element)
    ensures ElementGoType(e, true, false, Default, None) ==
      Ok(if e.constantGroup.Some? then e.constantGroup.value.name.camel else GoTypeName(e.baseType))
  {
  }

  /** Outside a constant group and with a non-zero cardinality, the element
      renderer and the module-level renderer produce the same text when the
      latter is asked for a fixed array exactly for cardinalities above one. */
  lemma ElementAgreesWithModule(e: Element)
    requires e.constantGroup.None? && e.cardinality != 0
    ensures DefaultGoType(e) == ModuleGoType(e.baseType, e.cardinality, e.cardinality > 1)
    ensures e.cardinality == 1 ==> DefaultGoType(e) == ModuleGoType(e.baseType, 1, true)
    ensures e.cardinality == 1 ==> DefaultGoType(e) == ModuleGoType(e.baseType, 1, false)
  {
    DefaultGoTypeText(e);
  }

  /** The text of `element.get_go_type()` for an element outside a constant group. */
  lemma DefaultGoTypeText(e: Element)
    requires e.constantGroup.None?
    ensures var name := GoTypeName(e.baseType);
            DefaultGoType(e) ==
              if e.baseType == Str then "string"
              else if e.cardinality > 1 then "[" + IntToString(e.cardinality) + "]" + name
              else if e.cardinality < 0 then "[]" + name
              else name
  {
    var r := ElementGoType(e, false, false, Default, None);
    assert r.Ok?;
  }

  /** At cardinality zero the renderers part ways: the element renderer gives
      the bare scalar, the module-level one a slice or a `[0]` array. */
  lemma ZeroCardinalityDiverges(e: Element)
    requires e.constantGroup.None? && e.cardinality == 0 && e.baseType != Str
    ensures DefaultGoType(e) == GoTypeName(e.baseType)
    ensures ModuleGoType(e.baseType, 0, false) == "[]" + GoTypeName(e.baseType)
    ensures ModuleGoType(e.baseType, 0, true) == "[0]" + GoTypeName(e.baseType)
  {
    DefaultGoTypeText(e);
    ZeroText();
  }

  lemma ZeroText()
    ensures IntToString(0) == "0"
  {
    assert NatToString(0) == "0";
  }
}

=== FILE: go_values.dfy ===
/** Go literals for constant and default values (`GoElement.format_value`). */
module GoValues {
  import opened Outcome
  import opened Text
  import opened Ir

  /** A Python value as it appears in a device description: a list, a boolean,
      an integer or a string. */
  datatype Value = VList(items: seq<Value>) | VBool(b: bool) | VInt(i: int) | VStr(s: String)

  /** Python's `bool(value)` for a value that is not a list. */
  function Truthy(v: Value): bool {
    match v
    case VList(items) => |items| > 0
    case VBool(b) => b
    case VInt(i) => i != 0
    case VStr(s) => |s| > 0
  }

  /** Python's `str(value)` for a value that is not a list. */
  function PyStr(v: Value): String
    requires !v.VList?
  {
    match v
    case VBool(b) => if b then "True" else "False"
    case VInt(i) => IntToString(i)
    case VStr(s) => s
  }

  /** Puts a backslash in front of every `quote`. */
  function Escape(s: String, quote: char): String {
    ReplaceChar(s, quote, ['\\', quote])
  }

  /** Removes the backslash in front of every `quote`: the inverse of the
      escaping the literals get, which leaves other backslashes alone. It is
      not a reader for Go literals. */
  function Unescape(s: String, quote: char): String
    decreases |s|
  {
    if |s| == 0 then []
    else if |s| >= 2 && s[0] == '\\' && s[1] == quote then [quote] + Unescape(s[2..], quote)
    else [s[0]] + Unescape(s[1..], quote)
  }

  lemma EscapeHead(s: String, quote: char)
    requires quote != '\\' && |s| > 0
    ensures |Escape(s, quote)| > 0 && Escape(s, quote)[0] != quote
  {
  }

  /** Escaping loses nothing: the escaped text reads back as the original. */
  lemma {:induction false} UnescapeEscape(s: String, quote: char)
    requires quote != '\\'
    ensures Unescape(Escape(s, quote), quote) == s
  {
    if |s| > 0 {
      var rest := Escape(s[1..], quote);
      UnescapeEscape(s[1..], quote);
      if s[0] == quote {
        assert Escape(s, quote) == ['\\', quote] + rest;
        assert (['\\', quote] + rest)[2..] == rest;
      } else {
        assert Escape(s, quote) == [s[0]] + rest;
        if |s| > 1 {
          EscapeHead(s[1..], quote);
        }
        assert ([s[0]] + rest)[1..] == rest;
      }
      assert [s[0]] + s[1..] == s;
    }
  }

  /** Every `quote` in `e` has a backslash in front of it. */
  predicate QuotesEscaped(e: String, quote: char) {
    forall i :: 0 <= i < |e| && e[i] == quote ==> 0 < i && e[i - 1] == '\\'
  }

  /** The escaped text leaves no `quote` bare. */
  lemma {:induction false} EscapedQuotes(s: String, quote: char)
    requires quote != '\\'
    ensures QuotesEscaped(Escape(s, quote), quote)
  {
    if |s| > 0 {
      var head: String := if s[0] == quote then ['\\', quote] else [s[0]];
      var rest := Escape(s[1..], quote);
      EscapedQuotes(s[1..], quote);
      assert Escape(s, quote) == head + rest;
      if |s| > 1 {
        EscapeHead(s[1..], quote);
      }
      forall i | 0 <= i < |head + rest| && (head + rest)[i] == quote
        ensures 0 < i && (head + rest)[i - 1] == '\\'
      {
        if i >= |head| {
          assert rest[i - |head|] == quote;
          if i > |head| {
            assert rest[i - |head| - 1] == '\\';
          }
        }
      }
    }
  }

  /** `s` between two `quote` characters, with every `quote` inside escaped. */
  function Quoted(s: String, quote: char): (r: String)
    requires quote != '\\'
    ensures |r| >= 2 && r[0] == quote && r[|r| - 1] == quote
    ensures forall i :: 1 <= i < |r| - 1 && r[i] == quote ==> r[i - 1] == '\\'
    ensures Unescape(r[1..|r| - 1], quote) == s
  {
    var e := Escape(s, quote);
    var r := [quote] + e + [quote];
    assert r[1..|r| - 1] == e;
    UnescapeEscape(s, quote);
    EscapedQuotes(s, quote);
    assert forall i :: 1 <= i < |r| - 1 ==> r[i] == e[i - 1];
    r
  }

  /** Every item in order, or the first failure. */
  function Collect(results: seq<Result<String>>): (r: Result<seq<String>>)
    ensures r.Ok? <==> forall i :: 0 <= i < |results| ==> results[i].Ok?
    ensures r.Ok? ==> |r.value| == |results|
    ensures r.Ok? ==> forall i :: 0 <= i < |results| ==> r.value[i] == results[i].value
  {
    if |results| == 0 then Ok([])
    else if results[0].Err? then Err(results[0].fault)
    else match Collect(results[1..])
      case Err(f) => Err(f)
      case Ok(rest) => Ok([results[0].value] + rest)
  }

  /** Whether the base type is one of the integer types, rendered with `str`. */
  predicate IsInteger(t: BaseType) {
    t !in {Float, Bool, Char, Str}
  }

  /** `GoElement.format_value`: lists become `{a, b}` recursively, booleans
      `true`/`false`, characters and strings quoted literals with their quote
      escaped, anything else its Python `str`. Floats go through `formatFloat`. */
  function FormatValue(t: BaseType, v: Value, formatFloat: Value -> String): (r: Result<String>)
    ensures v.VList? ==>
      (r.Ok? <==> forall i :: 0 <= i < |v.items| ==> FormatValue(t, v.items[i], formatFloat).Ok?)
    ensures v.VList? && r.Ok? ==>
      |r.value| >= 2 && r.value[0] == '{' && r.value[|r.value| - 1] == '}'
    ensures !v.VList? ==> (r.Err? <==> (t == Char || t == Str) && !v.VStr?)
    ensures !v.VList? && t == Float ==> r == Ok(formatFloat(v))
    ensures !v.VList? && t == Bool ==> r == Ok(if Truthy(v) then "true" else "false")
    ensures t == Char && v.VStr? ==>
      r.Ok? && |r.value| >= 2 && r.value[0] == '\'' && r.value[|r.value| - 1] == '\''
      && Unescape(r.value[1..|r.value| - 1], '\'') == v.s
      && (forall i :: 1 <= i < |r.value| - 1 && r.value[i] == '\'' ==> r.value[i - 1] == '\\')
    ensures t == Str && v.VStr? ==>
      r.Ok? && |r.value| >= 2 && r.value[0] == '"' && r.value[|r.value| - 1] == '"'
      && Unescape(r.value[1..|r.value| - 1], '"') == v.s
      && (forall i :: 1 <= i < |r.value| - 1 && r.value[i] == '"' ==> r.value[i - 1] == '\\')
    ensures IsInteger(t) && v.VInt? ==> r.Ok? && ParseInt(r.value) == Some(v.i)
    ensures IsInteger(t) && v.VBool? ==> r == Ok(if v.b then "True" else "False")
    ensures IsInteger(t) && v.VStr? ==> r == Ok(v.s)
    decreases v
  {
    match v
    case VList(items) =>
      var results := seq(|items|, i requires 0 <= i < |items| => FormatValue(t, items[i], formatFloat));
      assert forall i :: 0 <= i < |items| ==> results[i] == FormatValue(t, items[i], formatFloat);
      var parts := Collect(results);
      if parts.Err? then Err(parts.fault) else Ok("{" + Join(parts.value, ", ") + "}")
    case VStr(str) =>
      if t == Float then Ok(formatFloat(v))
      else if t == Bool then Ok(if Truthy(v) then "true" else "false")
      else if t == Char then Ok(Quoted(str, '\''))
      else if t == Str then Ok(Quoted(str, '"'))
      else Ok(PyStr(v))
    case VInt(i) =>
      if t == Float then Ok(formatFloat(v))
      else if t == Bool then Ok(if Truthy(v) then "true" else "false")
      else if t == Char || t == Str then Err(NotAString)
      else IntRoundTrip(i); Ok(PyStr(v))
    case VBool(_) =>
      if t == Float then Ok(formatFloat(v))
      else if t == Bool then Ok(if Truthy(v) then "true" else "false")
      else if t == Char || t == Str then Err(NotAString)
      else Ok(PyStr(v))
  }

  /** A list whose items all render is `{`, the item renderings in order
      joined by `, `, and `}`. */
  lemma ListLiteral(t: BaseType, items: seq<Value>, formatFloat: Value -> String)
    requires forall i :: 0 <= i < |items| ==> FormatValue(t, items[i], formatFloat).Ok?
    ensures FormatValue(t, VList(items), formatFloat)
      == Ok("{" + Join(seq(|items|, i requires 0 <= i < |items| => FormatValue(t, items[i], formatFloat).value), ", ") + "}")
  {
    var results := seq(|items|, i requires 0 <= i < |items| => FormatValue(t, items[i], formatFloat));
    var strs := seq(|items|, i requires 0 <= i < |items| => FormatValue(t, items[i], formatFloat).value);
    assert forall i :: 0 <= i < |items| ==> results[i] == FormatValue(t, items[i], formatFloat);
    assert Collect(results).Ok?;
    assert Collect(results).value == strs;
    assert FormatValue(t, VList(items), formatFloat) == Ok("{" + Join(Collect(results).value, ", ") + "}");
  }

  /** A list of integers for an integer type is the brace-enclosed, comma-separated
      list of their decimal renderings. */
  lemma IntegerListLiteral(t: BaseType, xs: seq<int>, formatFloat: Value -> String)
    requires IsInteger(t)
    ensures FormatValue(t, VList(seq(|xs|, i requires 0 <= i < |xs| => VInt(xs[i]))), formatFloat)
      == Ok("{" + Join(seq(|xs|, i requires 0 <= i < |xs| => IntToString(xs[i])), ", ") + "}")
  {
    var items := seq(|xs|, i requires 0 <= i < |xs| => VInt(xs[i]));
    var results := seq(|items|, i requires 0 <= i < |items| => FormatValue(t, items[i], formatFloat));
    var strs := seq(|xs|, i requires 0 <= i < |xs| => IntToString(xs[i]));
    assert Collect(results).value == strs;
  }
}

=== FILE: ir.dfy ===
/** The parts of a device description the Go backend reads: elements, constant
    groups, packets and devices, as the shared generator framework hands them over. */
module Ir {
  import opened Outcome
  import opened Text

  /** The twelve scalar type tokens of the declarative packet descriptions. */
  datatype BaseType =
    | Int8 | UInt8 | Int16 | UInt16 | Int32 | UInt32 | Int64 | UInt64
    | Float | Bool | Char | Str

  /** The declarative token of a base type, as written in the device descriptions. */
  function Token(t: BaseType): String {
    match t
    case Int8 => "int8"
    case UInt8 => "uint8"
    case Int16 => "int16"
    case UInt16 => "uint16"
    case Int32 => "int32"
    case UInt32 => "uint32"
    case Int64 => "int64"
    case UInt64 => "uint64"
    case Float => "float"
    case Bool => "bool"
    case Char => "char"
    case Str => "string"
  }

  /** A name in the three spellings the framework precomputes. */
  datatype Name = Name(headless: String, camel: String, under: String)

  datatype Direction = In | Out

  /** Whether an element belongs to the low-level half of a streamed operation. */
  datatype Level = Low | High

  /** The stream roles the framework attaches to synthesised elements. */
  datatype Role =
    | StreamLength | StreamChunkOffset | StreamChunkData | StreamChunkWritten
    | StreamData | StreamWritten | StreamOutOfSync

  datatype ConstantGroup = ConstantGroup(name: Name, baseType: BaseType)

  /** One field of a packet; `constantGroup` is the group bound to its first index. */
  datatype Element = Element(
    name: Name,
    baseType: BaseType,
    cardinality: int,
    direction: Direction,
    level: Level,
    role: Option<Role>,
    constantGroup: Option<ConstantGroup>)

  datatype PacketKind = Function | Callback

  /** The high-level stream a low-level packet belongs to. */
  datatype HighLevel = StreamIn(hasShortWrite: bool) | StreamOut(data: Element)

  /** A packet. `linkName` is the name with the two trailing low-level words
      skipped, and `highLevelElements` the element list of the high-level
      operation; both are computed by the framework. */
  datatype Packet = Packet(
    kind: PacketKind,
    name: Name,
    linkName: Name,
    elements: seq<Element>,
    highLevelElements: seq<Element>,
    highLevel: Option<HighLevel>)

  /** A device; `isTng` selects the newer naming order. */
  datatype Device = Device(name: Name, category: Name, isTng: bool)

  /** `get_elements(direction='out')`: the output elements, in order. */
  function OutElements(es: seq<Element>): (r: seq<Element>)
    ensures |r| <= |es|
    ensures forall e :: e in r <==> e in es && e.direction == Out
  {
    if |es| == 0 then []
    else (if es[0].direction == Out then [es[0]] else []) + OutElements(es[1..])
  }

  /** The output elements that are not low-level. */
  function NonLowElements(es: seq<Element>): (r: seq<Element>)
    ensures |r| <= |es|
    ensures forall e :: e in r <==> e in es && e.level != Low
  {
    if |es| == 0 then []
    else (if es[0].level != Low then [es[0]] else []) + NonLowElements(es[1..])
  }

  /** The low-level elements. */
  function LowElements(es: seq<Element>): (r: seq<Element>)
    ensures |r| <= |es|
    ensures forall e :: e in r <==> e in es && e.level == Low
  {
    if |es| == 0 then []
    else (if es[0].level == Low then [es[0]] else []) + LowElements(es[1..])
  }

  /** The low-level elements carrying the given role. */
  function LowElementsWithRole(es: seq<Element>, role: Role): (r: seq<Element>)
    ensures |r| <= |es|
    ensures forall e :: e in r <==> e in es && e.level == Low && e.role == Some(role)
  {
    if |es| == 0 then []
    else
      (if es[0].level == Low && es[0].role == Some(role) then [es[0]] else [])
      + LowElementsWithRole(es[1..], role)
  }
}

=== FILE: outcome.dfy ===
/** Optional values and the Python exceptions the renderer can raise. */
module Outcome {

  datatype Option<+T> = None | Some(value: T)

  /** The exceptions the Go renderer raises on malformed input. */
  datatype Fault =
    | AssertionFailed      // a failed `assert` on an argument
    | IndexOutOfRange      // `[0]` on an empty list
    | NotAString           // `.replace` called on a value that is not a string

  datatype Result<+T> = Ok(value: T) | Err(fault: Fault)
}

=== FILE: text.dfy ===
/** The Python string operations the Go renderer relies on, on `seq<char>`,
    and a decimal reader that gives the integer renderings their meaning. */
module Text {
  import opened Outcome

  type String = seq<char>

  /** Python's `str.isspace` for a single character. */
  predicate IsSpace(c: char) {
    var n := c as int;
    (9 <= n <= 13) || (0x1C <= n <= 0x20) || n == 0x85 || n == 0xA0 || n == 0x1680
    || (0x2000 <= n <= 0x200A) || n == 0x2028 || n == 0x2029 || n == 0x202F
    || n == 0x205F || n == 0x3000
  }

  predicate StartsWith(s: String, prefix: String) {
    |prefix| <= |s| && s[..|prefix|] == prefix
  }

  predicate EndsWith(s: String, suffix: String) {
    |suffix| <= |s| && s[|s| - |suffix|..] == suffix
  }

  /** Python's `s[n:]` for `n >= 0`: empty when `s` is shorter than `n`. */
  function Drop(s: String, n: nat): (r: String)
    ensures |s| <= n ==> r == []
    ensures n < |s| ==> s == s[..n] + r
  {
    if |s| <= n then [] else s[n..]
  }

  /** Python's `str.lstrip()`. */
  function LStrip(s: String): (r: String)
    ensures |r| <= |s|
    ensures r == [] || !IsSpace(r[0])
  {
    if |s| > 0 && IsSpace(s[0]) then LStrip(s[1..]) else s
  }

  /** `lstrip` removes a prefix made only of whitespace. */
  lemma {:induction false} LStripRemovesSpace(s: String)
    ensures var r := LStrip(s);
            && r == s[|s| - |r|..]
            && forall i :: 0 <= i < |s| - |r| ==> IsSpace(s[i])
  {
    if |s| > 0 && IsSpace(s[0]) {
      LStripRemovesSpace(s[1..]);
    }
  }

  /** Python's `str.rstrip()`. */
  function RStrip(s: String): (r: String)
    ensures |r| <= |s|
    ensures r == [] || !IsSpace(r[|r| - 1])
  {
    if |s| > 0 && IsSpace(s[|s| - 1]) then RStrip(s[..|s| - 1]) else s
  }

  /** `rstrip` removes a suffix made only of whitespace. */
  lemma {:induction false} RStripRemovesSpace(s: String)
    ensures var r := RStrip(s);
            && r == s[..|r|]
            && forall i :: |r| <= i < |s| ==> IsSpace(s[i])
  {
    if |s| > 0 && IsSpace(s[|s| - 1]) {
      RStripRemovesSpace(s[..|s| - 1]);
    }
  }

  /** Python's `str.strip()`. */
  function Strip(s: String): (r: String)
    ensures |r| <= |s|
    ensures r == [] || (!IsSpace(r[0]) && !IsSpace(r[|r| - 1]))
  {
    var l := LStrip(s);
    RStripRemovesSpace(l);
    RStrip(l)
  }

  /** Number of occurrences of `c`: Python's `s.count(c)` for a one-character `c`. */
  function Count(s: String, c: char): nat {
    if |s| == 0 then 0 else (if s[0] == c then 1 else 0) + Count(s[1..], c)
  }

  lemma {:induction false} CountAppend(a: String, b: String, c: char)
    ensures Count(a + b, c) == Count(a, c) + Count(b, c)
  {
    if |a| == 0 {
      assert a + b == b;
    } else {
      assert (a + b)[1..] == a[1..] + b;
      CountAppend(a[1..], b, c);
    }
  }

  lemma {:induction false} CountAbsent(s: String, c: char)
    ensures c !in s <==> Count(s, c) == 0
  {
    if |s| > 0 {
      CountAbsent(s[1..], c);
      assert s == [s[0]] + s[1..];
    }
  }

  /** Python's `s.replace(c, t)` for a one-character `c`. */
  function ReplaceChar(s: String, c: char, t: String): String {
    if |s| == 0 then [] else (if s[0] == c then t else [s[0]]) + ReplaceChar(s[1..], c, t)
  }

  /** What `s.replace(c, t)` contains: the characters of `s` other than `c`,
      and those of `t`. */
  lemma {:induction false} ReplaceCharMembers(s: String, c: char, t: String)
    ensures forall d :: d in ReplaceChar(s, c, t) ==> (d in s && d != c) || d in t
    ensures forall d :: d in s && d != c ==> d in ReplaceChar(s, c, t)
  {
    if |s| > 0 {
      ReplaceCharMembers(s[1..], c, t);
      assert forall d :: d in s && d != c && d != s[0] ==> d in s[1..];
    }
  }

  /** Python's `s.replace(c, '')`. */
  function RemoveChar(s: String, c: char): (r: String)
    ensures c !in r
  {
    ReplaceCharMembers(s, c, []);
    ReplaceChar(s, c, [])
  }

  /** Replacing `c` by the single character `e` moves every `c` into the count of `e`. */
  lemma {:induction false} ReplaceByCharCount(s: String, c: char, e: char)
    requires e != c
    ensures Count(ReplaceChar(s, c, [e]), e) == Count(s, e) + Count(s, c)
  {
    if |s| > 0 {
      ReplaceByCharCount(s[1..], c, e);
      var head := if s[0] == c then [e] else [s[0]];
      assert ReplaceChar(s, c, [e]) == head + ReplaceChar(s[1..], c, [e]);
      CountAppend(head, ReplaceChar(s[1..], c, [e]), e);
      assert head[1..] == [];
    }
  }

  lemma {:induction false} ReplaceCharAppend(a: String, b: String, c: char, t: String)
    ensures ReplaceChar(a + b, c, t) == ReplaceChar(a, c, t) + ReplaceChar(b, c, t)
  {
    if |a| == 0 {
      assert a + b == b;
    } else {
      assert (a + b)[1..] == a[1..] + b;
      ReplaceCharAppend(a[1..], b, c, t);
    }
  }

  /** Python's `s.replace(pattern, replacement)` for a non-empty pattern:
      non-overlapping occurrences, scanned left to right. */
  function Replace(s: String, pattern: String, replacement: String): (r: String)
    requires |pattern| > 0
    decreases |s|
  {
    if |s| < |pattern| then s
    else if s[..|pattern|] == pattern then replacement + Replace(s[|pattern|..], pattern, replacement)
    else [s[0]] + Replace(s[1..], pattern, replacement)
  }

  /** `sub` occurs somewhere in `s`: Python's `sub in s`. */
  predicate Contains(s: String, sub: String)
    decreases |s|
  {
    StartsWith(s, sub) || (|s| > 0 && Contains(s[1..], sub))
  }

  /** Python's `sep.join(parts)`. */
  function Join(parts: seq<String>, sep: String): String {
    if |parts| == 0 then []
    else if |parts| == 1 then parts[0]
    else parts[0] + sep + Join(parts[1..], sep)
  }

  /** Python's `s.split(sep)` for a one-character separator. */
  function Split(s: String, sep: char): (r: seq<String>)
    ensures |r| >= 1
    ensures forall i :: 0 <= i < |r| ==> sep !in r[i]
    ensures |r| == Count(s, sep) + 1
    decreases |s|
  {
    if |s| == 0 then [[]]
    else
      var rest := Split(s[1..], sep);
      if s[0] == sep then [[]] + rest
      else [[s[0]] + rest[0]] + rest[1..]
  }

  /** Joining the pieces of a split with the separator gives back the text. */
  lemma {:induction false} JoinSplit(s: String, sep: char)
    ensures Join(Split(s, sep), [sep]) == s
    decreases |s|
  {
    if |s| > 0 {
      var rest := Split(s[1..], sep);
      JoinSplit(s[1..], sep);
      if s[0] == sep {
        assert Split(s, sep)[1..] == rest;
      } else {
        var r := Split(s, sep);
        assert r[1..] == rest[1..];
        if |rest| == 1 {
          assert Join(r, [sep]) == [s[0]] + rest[0];
        } else {
          assert Join(r, [sep]) == [s[0]] + rest[0] + [sep] + Join(rest[1..], [sep]);
        }
        assert [s[0]] + s[1..] == s;
      }
    }
  }

  /** Splitting a join of separator-free pieces gives back the pieces. */
  lemma {:induction false} SplitJoin(parts: seq<String>, sep: char)
    requires |parts| >= 1
    requires forall i :: 0 <= i < |parts| ==> sep !in parts[i]
    ensures Split(Join(parts, [sep]), sep) == parts
    decreases |parts|, |parts[0]|
  {
    var head := parts[0];
    if |head| == 0 {
      if |parts| > 1 {
        assert Join(parts, [sep]) == [sep] + Join(parts[1..], [sep]);
        SplitJoin(parts[1..], sep);
        assert ([sep] + Join(parts[1..], [sep]))[1..] == Join(parts[1..], [sep]);
      }
    } else {
      var shorter := [head[1..]] + parts[1..];
      assert Join(parts, [sep]) == [head[0]] + Join(shorter, [sep]) by {
        if |parts| > 1 {
          assert shorter[1..] == parts[1..];
        }
      }
      SplitJoin(shorter, sep);
      assert ([head[0]] + Join(shorter, [sep]))[1..] == Join(shorter, [sep]);
      assert [head[0]] + head[1..] == head;
    }
  }

  function DigitChar(d: nat): (c: char)
    requires d < 10
    ensures '0' <= c <= '9'
  {
    "0123456789"[d]
  }

  function DigitValue(c: char): nat
    requires '0' <= c <= '9'
  {
    (c as int - '0' as int) as nat
  }

  predicate IsDigits(s: String) {
    forall i :: 0 <= i < |s| ==> '0' <= s[i] <= '9'
  }

  /** Python's `str(n)` for a non-negative integer. */
  function NatToString(n: nat): (r: String)
    ensures |r| >= 1 && IsDigits(r)
    ensures r[0] == '0' ==> r == "0"
  {
    if n < 10 then [DigitChar(n)] else NatToString(n / 10) + [DigitChar(n % 10)]
  }

  /** Python's `str(i)` for any integer. */
  function IntToString(i: int): String {
    if i < 0 then "-" + NatToString(-i) else NatToString(i)
  }

  /** `str(i)` is a minus sign and digits, never empty. */
  lemma IntToStringChars(i: int)
    ensures var r := IntToString(i);
            && |r| >= 1 && ']' !in r && '[' !in r
            && forall c :: c in r ==> c == '-' || '0' <= c <= '9'
  {
  }

  function DigitsValue(s: String): nat
    requires IsDigits(s)
  {
    if |s| == 0 then 0 else DigitsValue(s[..|s| - 1]) * 10 + DigitValue(s[|s| - 1])
  }

  /** A reader for decimal integer text: an optional minus sign followed by
      digits. The renderer never reads integers; this is the inverse against
      which its `str` renderings are stated. */
  function ParseInt(s: String): Option<int> {
    if |s| > 0 && s[0] == '-' then
      (if |s| > 1 && IsDigits(s[1..]) then Some(0 - DigitsValue(s[1..])) else None)
    else if |s| > 0 && IsDigits(s) then Some(DigitsValue(s))
    else None
  }

  lemma {:induction false} DigitsOfNat(n: nat)
    ensures DigitsValue(NatToString(n)) == n
  {
    var s := NatToString(n);
    if n >= 10 {
      DigitsOfNat(n / 10);
      assert s[..|s| - 1] == NatToString(n / 10);
    }
  }

  /** Reading back a rendered integer gives the integer. */
  lemma IntRoundTrip(i: int)
    ensures ParseInt(IntToString(i)) == Some(i)
  {
    if i < 0 {
      NegativeRoundTrip(-i);
    } else {
      NaturalRoundTrip(i);
    }
  }

  lemma NaturalRoundTrip(n: nat)
    ensures ParseInt(IntToString(n)) == Some(n)
  {
    var s := NatToString(n);
    assert IntToString(n) == s;
    assert '0' <= s[0] <= '9';
    DigitsOfNat(n);
  }

  lemma NegativeRoundTrip(n: nat)
    requires n > 0
    ensures ParseInt(IntToString(0 - n)) == Some(0 - n)
  {
    var digits := NatToString(n);
    var s := "-" + digits;
    assert IntToString(0 - n) == s;
    assert s[0] == '-' && s[1..] == digits;
    DigitsOfNat(n);
  }
}
